=== FILE: README.md ===
# Peer-Swap client decision rules in Dafny

Peer-Swap is a skill-exchange web client built with Next.js. Users list the skills they teach and learn. They search for partners, schedule sessions, review each other and keep a profile. The client holds no business logic of its own. What it does hold is a set of small decision rules inside its handlers and its HTTP client. This project models those rules and proves what each promises. One module covers each source file:

| module | file | what it models |
|---|---|---|
| `Api` | `api.dfy` | The response interceptor: one-level unwrap, 401 → refresh → re-issue, error-message normalisation, the sign-in redirect. Also the endpoint path builders and the text a page's error banner shows. |
| `Auth` | `auth.dfy` | The `useAuth` hook: the mount guard, `checkAuth`, `logout` and `refreshUser` as updates of the store fields `user` and `isLoading`. |
| `CreateSession` | `create_session.dfy` | The session creation page: the first-failure-wins validator, the payload, and the participant toggle and role map. Also the handlers that keep the skill id and the custom skill name exclusive. |
| `SessionCard` | `session_card.dfy` | The join window, the Join/View action, the participant preview and "+N more", the participant count label, the status label and the colours. |
| `SkillCatalog` | `skill_catalog.dfy` | The case-insensitive name filter shared by the search page and the skills editor, and the exact-name lookup. |
| `Search` | `search.dfy` | The search page state: the typed text, the chosen skill, the filter, the page and the dropdown flag. Also the query it runs and the Previous/Next clamps. |
| `SkillsEditor` | `skills_editor.dfy` | The add-skill form: name matching, suggestions, the custom flag, the request choice, the reset paths and the proficiency label. |
| `ProfileEdit` | `profile_edit.dfy` | The profile edit page: initialisation from the loaded profile, the name and bio checks, and the update request. |
| `ReviewForm` | `review_form.dfy` | The review form: stars, hover highlighting, captions, submit enabling and the request. |
| `AvatarUpload` | `avatar_upload.dfy` | The avatar uploader: the type and size checks, the preview, upload, cancel and the avatar shown. |
| `Text`, `Types` | `text.dfy`, `types.dfy` | The JavaScript string operations the handlers use (`trim`, ASCII `toLowerCase`, `includes`, `startsWith`, `slice`, decimal formatting of numbers), truthiness of an optional number, and the enumerations of `src/types/index.ts`. |

Some conventions used throughout:
- React state setters become fields of a class that the handler methods update.
- A mutation call is recorded by appending its request to a `sent`/`submitted`/`uploads` sequence.
- Times are integers (milliseconds). An empty date-time field is `None`.
- The HTTP transport is a finite script of outcomes that the interceptor consumes: a reply with its status and body, or no response at all.

### The interceptor
`Api.Run(req, script, hasWindow)` is the specification. It gives the settlement of one call, the requests and navigations it causes, and how many transport outcomes it consumes. `Api.Client.Send` is the recursive method on a client object. It consumes the outcomes and logs the events, and it is proved equal to `Run`. The code keeps no "already retried" marker. So a 401 on the re-issued request goes through the refresh again, as `Api.SecondUnauthorizedRefreshesAgain` shows. No bound on the number of retries is claimed.

Every rejection the interceptor produces is a plain `Error` that carries only a message. The pages' `onError` handlers read `err.response?.data?.error?.message`. `Api.BannerShowsFallback` proves that for interceptor rejections this is always absent. Each page banner therefore shows its own fallback text, whatever the server said.

The refresh request goes through the same client, so it meets the same interceptor. A 401 on the refresh itself starts a refresh of its own. When that fails, every level navigates to the sign-in page in turn: `Api.RefreshUnauthorizedRedirectsTwice` shows two navigations for a 401 whose refresh also gets a 401. `Api.RefreshThenReissue` and `Api.RefreshFailureRedirects` state the 401 branch for a refresh call that went any way at all.

A response body is the server's envelope, `null`, or some other JSON value. `null` is kept apart because `useAuth` reads `response.data` off the resolved body, and that read throws on `null` and sends the hook into its `catch`.

### The session card
The card's Join test `canJoin && status !== 'CANCELLED'` has a redundant second half: `canJoin` already excludes cancelled sessions (`SessionCard.FinishedSessionsShowDetails`).

## Model

| member | source | states |
|---|---|---|
| Api.ServerMessage | src/lib/api.ts:46 | The server's message is present exactly when the reply is a JSON envelope whose `error.message` is a non-empty string, and then it is that string unchanged. |
| Api.ErrorMessage | src/lib/api.ts:46 | The normalised message is never empty. It is the server's message when there is one, else "An error occurred". |
| Api.Run | src/lib/api.ts:26-48 | One call never consumes more outcomes than the script holds, and always starts by sending the request. Every rejection is a plain error with a non-empty message. |
| Api.Recover | src/lib/api.ts:31-42 | The 401 branch consumes the refresh call's outcomes and at least one more. The request was sent first, and a rejection carries a non-empty message. |
| Api.ResolvedBodyWasSent | src/lib/api.ts:27-29 | Whatever a call resolves with is the unchanged body of some 2xx reply of the transport. |
| Api.Client.Send | src/lib/api.ts:26-48 | The method's settlement, its log entries and the outcomes it leaves are exactly those `Run` specifies for the outcomes pending before the call. |
| Api.SuccessUnwrapsOnce | src/lib/api.ts:27-29 | A 2xx reply resolves with its body, one level unwrapped, after sending only the request. |
| Api.OtherFailureRejectsAtOnce | src/lib/api.ts:31-47 | A failure that is not a 401, including no response, rejects at once with the normalised message. It issues no refresh and consumes one outcome. |
| Api.RefreshThenReissue | src/lib/api.ts:31-36 | After a 401 whose refresh call resolved, however it went, the request is re-issued on the outcomes the refresh left. The events are the request, all the refresh's events, then the re-issued request's events. The call settles as the re-issued request does, with no navigation and no message of its own. |
| Api.RefreshFailureRedirects | src/lib/api.ts:31-47 | After a 401 whose refresh call rejected, however it went, the events are the request and all the refresh's events. Then the client navigates to /auth/signin, only when a window exists. The call rejects with the normalised message of the original 401. |
| Api.RefreshOnceThenReissue | src/lib/api.ts:31-36 | A 401 followed by a 2xx refresh sends exactly the request, the refresh and then the re-issued request's own events. |
| Api.RefreshFailsOnceRedirects | src/lib/api.ts:37-47 | A 401 followed by a refresh failing without a 401 sends the request and the refresh, navigates once with a window, and rejects with the 401's message. |
| Api.RefreshUnauthorizedRedirectsTwice | src/lib/api.ts:31-47 | A 401 whose refresh also meets a 401, and whose second refresh fails, sends the request and two refreshes. It then navigates to /auth/signin twice with a window, and rejects with the first 401's message. |
| Api.SecondUnauthorizedRefreshesAgain | src/lib/api.ts:31-36 | A 401 on the re-issued request triggers a second refresh and a third send: there is no at-most-once retry. |
| Api.Banner | src/app/sessions/create/page.tsx:48-50 | A banner shows the server message of a transport error when there is one. For a transport error without one, and for a plain error, it shows the page's fallback. |
| Api.BannerShowsFallback | src/lib/api.ts:47 | For every rejection of the interceptor, the page banner shows the fallback text. |
| Api.UserPath | src/lib/api.ts:66 | The path is "/api/users/" followed by the id, and the id can be read back from it. |
| Api.RemoveSkillPath | src/lib/api.ts:87 | The path is "/api/users/me/skills/" followed by the decimal id, which parses back to the same number. |
| Api.SessionPath | src/lib/api.ts:114 | The path is "/api/sessions/" followed by the id, and the id can be read back from it. |
| Api.CancelSessionPath | src/lib/api.ts:115 | The path is "/api/sessions/" + id + "/cancel", and the id can be read back from it. |
| Api.ParticipantPath | src/lib/api.ts:117 | The path is "/api/sessions/" + session id + "/participants/" + user id, and both ids can be read back from it. |
| Api.MarkReadPath | src/lib/api.ts:127 | The path is "/api/messages/" + decimal id + "/read", and the id parses back to the same number. |
| Auth.UserOf | src/hooks/useAuth.ts:19 | For an envelope, the user is exactly its `data` field. Any other body gives no user (undefined). |
| Auth.AuthState.OnMount | src/hooks/useAuth.ts:8-13 | The fetch runs only when no user is cached and nothing is loading; otherwise the state and the trace are unchanged. |
| Auth.AuthState.CheckAuth | src/hooks/useAuth.ts:15-25 | Afterwards loading is off. The user is the response's data, or none when the fetch rejects or resolves with `null`. The steps taken are `CheckAuthSteps`. |
| Auth.CheckAuthUser | src/hooks/useAuth.ts:18-21 | A rejected fetch, or one resolved with `null`, gives no user. A resolved fetch gives `UserOf` its body, so a stored user is the data of a resolved envelope. |
| Auth.CheckAuthSteps | src/hooks/useAuth.ts:16-24 | `checkAuth` sets loading on, fetches, stores the user, and sets loading off last, on success and on failure alike. |
| Auth.AuthState.Logout | src/hooks/useAuth.ts:27-38 | After logout there is no user and the loading flag is untouched. The steps are `LogoutSteps`. |
| Auth.LogoutSteps | src/hooks/useAuth.ts:27-38 | The logout request goes first and the store is always cleared. With a window, the last step navigates to "/". An error is logged exactly when the request rejected. |
| Auth.AuthState.RefreshUser | src/hooks/useAuth.ts:40-47 | The loading flag is never touched. When the fetch rejects or resolves with `null`, the user is kept and the error is logged. Otherwise the user is the response's data. |
| Auth.FailedRefreshCascadeClearsUser | src/hooks/useAuth.ts:15-25 | A 401 on `getMe` whose refresh gets no response makes `checkAuth` reject, which stores no user. |
| CreateSession.FirstError | src/app/sessions/create/page.tsx:57-90 | No message is set exactly when every check passes: non-blank title, both times present, now < start < end, and a participant count allowed for the session type. |
| CreateSession.FirstFailureWins | src/app/sessions/create/page.tsx:57-90 | "Title is required" is set exactly for a blank title. Each later message is set exactly when every earlier check passed and its own check failed. |
| CreateSession.AcceptedIsScheduledAhead | src/app/sessions/create/page.tsx:72-90 | An accepted submission has a non-blank title, now < start < end, exactly 1 participant for ONE_ON_ONE and 1 to 3 for GROUP. |
| CreateSession.ChooseSkill | src/app/sessions/create/page.tsx:95 | The skill id is sent exactly when it is truthy. Otherwise the custom name is sent exactly when it is non-empty. Never both. |
| CreateSession.MakePayload | src/app/sessions/create/page.tsx:92-100 | The title is trimmed. The description is omitted exactly when blank and trimmed otherwise. The skill follows `ChooseSkill`, and type, times and participants pass through. |
| CreateSession.PayloadSkillExclusive | src/app/sessions/create/page.tsx:167-187 | Under the form's invariant the payload carries the selected id, or the custom name, or neither. |
| CreateSession.CreateSessionForm.HandleSubmit | src/app/sessions/create/page.tsx:53-103 | The error becomes the first failed check's message. The request is submitted exactly when there is none, and no form field changes. |
| CreateSession.RemoveUser | src/app/sessions/create/page.tsx:108 | The filtered list keeps exactly the entries of other users and no entry of the removed user. |
| CreateSession.RemoveAbsent | src/app/sessions/create/page.tsx:108 | Filtering out a user who is not listed leaves the list unchanged. |
| CreateSession.RemoveKeepsUnique | src/app/sessions/create/page.tsx:108 | Filtering keeps a list of distinct user ids distinct. |
| CreateSession.RemoveAt | src/app/sessions/create/page.tsx:108 | In a list of distinct ids, removing the user at index k drops that one entry and keeps all others in order. |
| CreateSession.Toggle | src/app/sessions/create/page.tsx:105-112 | A listed user is removed and an unlisted one is appended with the given role. Membership flips and distinct ids stay distinct. |
| CreateSession.ToggleTwice | src/app/sessions/create/page.tsx:105-112 | Toggling an unlisted user twice gives back the original list. |
| CreateSession.RemoveLast | src/app/sessions/create/page.tsx:108-110 | Filtering out the user just appended, who was not listed before, gives back the earlier list. |
| CreateSession.SetRole | src/app/sessions/create/page.tsx:295-301 | Length and user ids are kept. Only entries of the given user take the new role; every other entry is unchanged. |
| CreateSession.SetRoleKeepsUsers | src/app/sessions/create/page.tsx:295-301 | A role change invites nobody new, removes nobody, and keeps ids distinct. |
| CreateSession.CreateSessionForm.ToggleParticipant | src/app/sessions/create/page.tsx:105-112 | The list becomes `Toggle` of the old one. The user's membership flips and ids stay distinct. Every other field is unchanged. |
| CreateSession.CreateSessionForm.ChangeRole | src/app/sessions/create/page.tsx:294-301 | The list becomes `SetRole` of the old one, and every other field is unchanged. |
| CreateSession.CreateSessionForm.SelectSkill | src/app/sessions/create/page.tsx:167-170 | Picking a skill sets the id and clears the custom name. Every other field is unchanged. |
| CreateSession.CreateSessionForm.TypeCustomSkill | src/app/sessions/create/page.tsx:184-187 | Typing a custom name sets it and clears the id. Every other field is unchanged. |
| CreateSession.CreateSessionForm.OnCreateError | src/app/sessions/create/page.tsx:48-50 | The error is the banner text, which for an interceptor rejection is "Failed to create session". Every other field is unchanged and the invariant is kept. |
| SessionCard.JoinWindow | src/components/sessions/SessionCard.tsx:31-34 | `CanJoin`, the card's `canJoin`: a scheduled session is joinable exactly from ten minutes before its start on, including starts in the past. Once joinable it stays so, an in-progress session always is, and completed or cancelled ones never are. |
| SessionCard.CardAction | src/components/sessions/SessionCard.tsx:129-145 | Without actions nothing is shown. Join (to /sessions/id/room) is shown exactly when the session can be joined and is not cancelled; otherwise View Details (to /sessions/id). |
| SessionCard.FinishedSessionsShowDetails | src/components/sessions/SessionCard.tsx:131-145 | Completed and cancelled sessions always get View Details. |
| SessionCard.Preview | src/components/sessions/SessionCard.tsx:102 | At most three participants are shown, the first ones in order, and all of them when there are fewer than three. |
| SessionCard.Overflow | src/components/sessions/SessionCard.tsx:120-124 | "+N more" appears exactly when there are more than three participants, and then N is positive. |
| SessionCard.PreviewAndOverflowCoverAll | src/components/sessions/SessionCard.tsx:102-124 | The avatars shown plus the "+N more" count add up to the number of participants. |
| SessionCard.ParticipantLabel | src/components/sessions/SessionCard.tsx:90-95 | The label is shown exactly for a positive count. Its number reads back as the count and is followed by " participant". An "s" is added exactly when the count is not 1. |
| SessionCard.ReplaceFirst | src/components/sessions/SessionCard.tsx:63 | Only the first occurrence of the character is replaced; every other character and the length are kept. |
| SessionCard.StatusLabel | src/components/sessions/SessionCard.tsx:63 | The label has the length of the status name. |
| SessionCard.InProgressLabel | src/components/sessions/SessionCard.tsx:63 | IN_PROGRESS is shown as "IN PROGRESS". |
| SessionCard.PlainStatusLabels | src/components/sessions/SessionCard.tsx:63 | The other statuses are shown as their names. |
| SessionCard.StatusColor | src/components/sessions/SessionCard.tsx:37-42 | Every status has a non-empty colour entry. |
| SessionCard.StatusColorsDistinct | src/components/sessions/SessionCard.tsx:37-42 | No two statuses share a colour. |
| SkillCatalog.FilterByName | src/app/search/page.tsx:42-44 | A skill is kept exactly when its lowercased name contains the lowercased query. |
| SkillCatalog.FilterKeepsOrder | src/app/search/page.tsx:42-44 | Filtering distributes over concatenation, so the kept skills stay in catalogue order. |
| SkillCatalog.EmptyQueryKeepsAll | src/app/search/page.tsx:42-44 | An empty query keeps every skill. |
| SkillCatalog.FindByName | src/components/profile/SkillsEditor.tsx:160-162 | Nothing is found exactly when no name equals the input up to case. Otherwise the result is the first such skill of the catalogue. |
| SkillCatalog.FoundIsSuggested | src/components/profile/SkillsEditor.tsx:160-182 | An exact match is also among the filtered skills. |
| Search.SearchQuery | src/app/search/page.tsx:25-35 | The query is disabled exactly while no skill is chosen. Otherwise it carries the skill, the page and limit 20, and the type exactly when a filter is set. |
| Search.Dropdown | src/app/search/page.tsx:100-102 | The dropdown is empty while closed. Open, it shows the first ten filtered skills in order, or every match when fewer than ten match. All of them are matching skills of the catalogue. |
| Search.PreviousPage | src/app/search/page.tsx:216 | The page becomes max(1, page - 1). |
| Search.NextPage | src/app/search/page.tsx:226 | The page becomes min(total pages, page + 1). |
| Search.ClampsStayInRange | src/app/search/page.tsx:213-227 | From a page in 1..total, both buttons stay in 1..total. Each leaves the page unchanged exactly at its end. |
| Search.SearchState.HandleSearch | src/app/search/page.tsx:46-51 | The chosen text becomes the skill and the query text, the dropdown closes, and the page resets to 1. |
| Search.SearchState.SubmitTyped | src/app/search/page.tsx:82-96 | Enter and the Search button search for the typed text, which stays in the input, and do nothing while it is empty. The filter is kept. |
| Search.SearchState.PickSuggestion | src/app/search/page.tsx:105-107 | A dropdown entry searches for its name. |
| Search.SearchState.HandleSkillInputChange | src/app/search/page.tsx:53-56 | The dropdown is open exactly while the typed value is non-empty; the running search is kept. |
| Search.SearchState.SetFilter | src/app/search/page.tsx:126-155 | A filter button sets the filter and keeps the page and the search. |
| Search.SearchState.Previous | src/app/search/page.tsx:216 | The page becomes `PreviousPage` of the old one and stays at least 1. |
| Search.SearchState.Next | src/app/search/page.tsx:213-226 | Callable only while the buttons are drawn (`ShowsPagination`, more than one page). The page becomes `NextPage` of the old one and stays at most the total. |
| SkillsEditor.AddPayload | src/components/profile/SkillsEditor.tsx:55-67 | Nothing is sent when there is no text and no truthy id. Otherwise the typed name is sent when the custom flag is set or no id is selected, the id otherwise, never both. |
| SkillsEditor.RequestFollowsSelection | src/components/profile/SkillsEditor.tsx:58-64 | Under the form's invariant the request carries the id exactly when one is selected. |
| SkillsEditor.Suggestions | src/components/profile/SkillsEditor.tsx:173-182 | For non-empty input, the first five catalogue skills whose name contains it up to case, or every such skill when fewer than five match; none for empty input. |
| SkillsEditor.Capitalize | src/components/profile/SkillsEditor.tsx:114 | The first character is kept and the rest is lowercased. |
| SkillsEditor.ProficiencyLabel | src/components/profile/SkillsEditor.tsx:114 | The label of a level has the length of its name, keeps the first letter, and lowers every later one. |
| SkillsEditor.AddSkillForm.SetSkillType | src/components/profile/SkillsEditor.tsx:76-92 | A tab sets the skill type and changes nothing else. |
| SkillsEditor.AddSkillForm.SetProficiency | src/components/profile/SkillsEditor.tsx:227 | The select sets the proficiency and changes nothing else. |
| SkillsEditor.BeginnerLabel | src/components/profile/SkillsEditor.tsx:114 | BEGINNER is shown as "Beginner". |
| SkillsEditor.IntermediateLabel | src/components/profile/SkillsEditor.tsx:114 | INTERMEDIATE is shown as "Intermediate". |
| SkillsEditor.AdvancedLabel | src/components/profile/SkillsEditor.tsx:114 | ADVANCED is shown as "Advanced". |
| SkillsEditor.ExpertLabel | src/components/profile/SkillsEditor.tsx:114 | EXPERT is shown as "Expert". |
| SkillsEditor.AddSkillForm.OnInputChange | src/components/profile/SkillsEditor.tsx:157-169 | An exact match up to case selects that skill's id and clears the custom flag. No match clears the id. The tab, the proficiency and the visibility are kept. |
| SkillsEditor.AddSkillForm.PickSuggestion | src/components/profile/SkillsEditor.tsx:185-189 | A suggestion sets the text to its name and the id to its id, and clears the custom flag. The tab and the proficiency are kept. |
| SkillsEditor.AddSkillForm.SetCustom | src/components/profile/SkillsEditor.tsx:209-214 | Checking "custom" clears the selected id; unchecking keeps it. The text, the tab and the proficiency are kept. |
| SkillsEditor.AddSkillForm.HandleAddSkill | src/components/profile/SkillsEditor.tsx:55-67 | Exactly the request of `AddPayload` is sent, or nothing, and the form fields, the tab and the proficiency are unchanged. |
| SkillsEditor.AddSkillForm.OnAddSuccess | src/components/profile/SkillsEditor.tsx:38-44 | A successful add hides the form and clears the text, the id and the custom flag. |
| SkillsEditor.AddSkillForm.Cancel | src/components/profile/SkillsEditor.tsx:247-252 | Cancel resets the form the same way. |
| SkillsEditor.AddSkillForm.Open | src/components/profile/SkillsEditor.tsx:137-144 | "+ Add Skill" shows the form and keeps its contents, the tab and the proficiency. |
| ProfileEdit.ProfileError | src/app/profile/edit/page.tsx:53-62 | No message exactly when the trimmed name has at least 2 characters and the untrimmed bio at most 1000. The name is checked first. |
| ProfileEdit.BioLimitIsInclusive | src/app/profile/edit/page.tsx:59-62 | A bio of exactly 1000 characters passes and 1001 fails. |
| ProfileEdit.UpdatePayload | src/app/profile/edit/page.tsx:64-68 | The name is trimmed. The bio is trimmed, or omitted exactly when blank. The time zone is omitted exactly when empty. |
| ProfileEdit.AcceptedRequestWithinLimits | src/app/profile/edit/page.tsx:54-68 | An accepted request has a name of at least 2 characters with no surrounding space, and a bio that is absent or 1 to 1000 characters. |
| ProfileEdit.OrEmpty | src/app/profile/edit/page.tsx:30-32 | A missing profile field becomes ''. |
| ProfileEdit.ProfileForm.Initialize | src/app/profile/edit/page.tsx:28-34 | A loaded profile fills name, bio and time zone, with '' for missing ones. Without a profile nothing changes. |
| ProfileEdit.ProfileForm.HandleSubmit | src/app/profile/edit/page.tsx:49-69 | The error becomes `ProfileError`. The update request is sent exactly when there is no error, and the fields are unchanged. |
| ProfileEdit.ProfileForm.OnUpdateError | src/app/profile/edit/page.tsx:44-46 | The error is the banner text, which for an interceptor rejection is "Failed to update profile". |
| ReviewForm.HighlightIsPrefix | src/components/reviews/ReviewForm.tsx:72 | `StarHighlighted`: a star is highlighted exactly when it is at most the hovered star, or at most the rating when nothing is hovered. So the highlighted stars are always the first ones. |
| ReviewForm.RatingLabel | src/components/reviews/ReviewForm.tsx:82-89 | A caption is shown exactly for a positive rating: "Poor", "Fair", "Good", "Very Good" and "Excellent" for 1 to 5, and an empty caption above 5. |
| ReviewForm.RatingLabelsDistinct | src/components/reviews/ReviewForm.tsx:84-88 | Ratings 1 to 5 each have a non-empty caption, and no two share one. |
| ReviewForm.SubmitEnabledOnlyWhenRated | src/components/reviews/ReviewForm.tsx:122 | `SubmitDisabled`: submit is enabled exactly when nothing is pending and a star from 1 to 5 is chosen. |
| ReviewForm.ReviewFormState.ClickStar | src/components/reviews/ReviewForm.tsx:65 | A click sets the rating to the star and keeps it in 0..5. |
| ReviewForm.ReviewFormState.HoverStar | src/components/reviews/ReviewForm.tsx:66 | Entering a star sets the hover rating to it. |
| ReviewForm.ReviewFormState.LeaveStar | src/components/reviews/ReviewForm.tsx:67 | Leaving a star clears the hover rating. |
| ReviewForm.ReviewFormState.HandleSubmit | src/components/reviews/ReviewForm.tsx:34-49 | With no rating, "Please select a rating" is set and nothing is sent. Otherwise the error is cleared and the request goes out with the ids unchanged and the text trimmed or omitted. |
| ReviewForm.SentReviewsAreRated | src/components/reviews/ReviewForm.tsx:43-48 | A sent review has a rating from 1 to 5. Its text is trimmed and non-empty, and absent exactly when blank. |
| ReviewForm.ReviewFormState.OnError | src/components/reviews/ReviewForm.tsx:29-31 | The error is the banner text, which for an interceptor rejection is "Failed to submit review". The rating, the hover, the text and the sent requests are unchanged. |
| AvatarUpload.FileError | src/components/profile/AvatarUpload.tsx:34-44 | A type not starting with "image/" is reported first. Then a size above 5 MiB is reported. A file passes exactly when neither applies. |
| AvatarUpload.SizeLimitIsInclusive | src/components/profile/AvatarUpload.tsx:41-44 | A file of exactly 5 MiB passes and one byte more fails. |
| AvatarUpload.AvatarUploader.HandleFileSelect | src/components/profile/AvatarUpload.tsx:30-54 | With no file nothing changes. An invalid file sets its message and starts no read. A valid file clears the error and starts the preview read. |
| AvatarUpload.AvatarUploader.PreviewLoaded | src/components/profile/AvatarUpload.tsx:50-52 | Called only while a read is pending: the oldest pending read is taken off the queue and its data URL becomes the preview. Nothing else changes. |
| AvatarUpload.AvatarUploader.HandleUpload | src/components/profile/AvatarUpload.tsx:56-61 | The input's file is uploaded; without one nothing happens. |
| AvatarUpload.AvatarUploader.HandleCancel | src/components/profile/AvatarUpload.tsx:63-69 | Cancel clears the preview, the error and the input. |
| AvatarUpload.AvatarUploader.OnUploadSuccess | src/components/profile/AvatarUpload.tsx:20-24 | A successful upload clears the preview and the error. |
| AvatarUpload.AvatarUploader.OnUploadError | src/components/profile/AvatarUpload.tsx:25-27 | The error is the banner text, which for an interceptor rejection is "Failed to upload avatar". |
| AvatarUpload.DisplayAvatar | src/components/profile/AvatarUpload.tsx:71 | The avatar shown is the preview when there is a non-empty one, else the current avatar. |
| AvatarUpload.CancelShowsCurrentAvatar | src/components/profile/AvatarUpload.tsx:63-71 | After a cancel the current avatar is shown again. |
| Text.Trim | src/app/sessions/create/page.tsx:58 | The result is the input with exactly its leading and trailing whitespace removed. It is empty exactly for a blank input. |
| Text.TrimIdempotent | src/app/profile/edit/page.tsx:65 | Trimming twice is trimming once. |
| Text.TrimOrOmit | src/app/sessions/create/page.tsx:94 | Trim-or-omit is absent exactly for a blank string, and otherwise the non-empty trimmed text. |
| Text.Lower | src/app/search/page.tsx:43 | Each character is lowered (ASCII) and the length is kept. |
| Text.LowerIdempotent | src/app/search/page.tsx:43 | Lowering twice is lowering once. |
| Text.IntRoundTrip | src/lib/api.ts:87 | A number written in decimal parses back to the same number. |

## Left out
- JSX rendering, styling classes, link markup and the display-only pages and components. These include the matches, dashboard, home, messages and profile pages, the header, the sidebar and the cards.
- The axios transport, cookies, `FormData`, `FileReader`, React Query caching and invalidation, and `router.push` after a success. The transport is a script of outcomes. Requests are recorded in sequences, and the file read is split into `HandleFileSelect` and `PreviewLoaded`.
- The request interceptor of `src/lib/api.ts`, which passes the configuration through unchanged.
- Endpoint wrappers without an identifier in the path: their paths are constants.
- Identifiers printed into paths are integers. JavaScript prints a fractional number, `NaN` or a magnitude of 10^21 or more differently ("1.5", "NaN", "1e+21"), and that formatting is not modelled.
- Date parsing and formatting. Times are integers, so an unparsable date (`NaN`) and `toISOString` are not modelled.
- Unicode case mapping: `toLowerCase` lowers ASCII letters only.
- String lengths count characters. JavaScript counts UTF-16 code units, so the 2-character name and 1000-character bio limits differ for characters outside the Basic Multilingual Plane.
- The internals of `@/store/authStore`, and how `isAuthenticated` is derived. The store is its fields `user` and `isLoading`, and `storeLogout` is the recorded step that clears the user.
- Auth.AuthState.Logout: the store's `logout` is not part of this model. Its step is taken to clear the user and leave `isLoading` as it was, so the contract's `isLoading` clause rests on that reading.
- Overlapping `checkAuth` calls and any other interleaving of asynchronous handlers: each handler runs to completion.
- Api.Run: an exhausted outcome script is taken as a transport failure without a response, so every call terminates.
- Plain input setters that only copy the typed value into a field (title, description, times, bio, review text and the like). They are field assignments.
- Fetching the skills catalogue, the matches and the profile. Their results are parameters.
- `src/types/index.ts` contributes only enumerations and the skill record.

=== FILE: api.dfy ===
/** The HTTP client of src/lib/api.ts: the response interceptor (unwrap on
    success, refresh and re-issue on 401, message normalisation on failure)
    and the path builders of the endpoint catalogue.

    The transport is not modelled: every request the client issues consumes
    the next entry of a finite script of transport outcomes, which stands for
    whatever the server and the network do. */
module Api {
  import opened Text

  datatype Method = Get | Post | Patch | Delete

  /** A request configuration as the transport receives it. */
  datatype Request = Request(verb: Method, path: string, payload: Option<string>)

  /** The `error` member of a response body. */
  datatype ErrorField = ErrorField(code: string, message: Option<string>)

  /** A response body: the server's `{ success, data, error }` envelope,
      `null`, or any other JSON value (which has none of those members).
      `null` is told apart because reading a member of it throws. The
      payload in `data` is opaque to the client. */
  datatype Body =
    | Envelope(success: bool, data: Option<string>, error: Option<ErrorField>)
    | Null
    | OtherJson

  datatype Reply = Reply(status: int, body: Body)

  /** What the transport produced for one request: a reply, or none at all. */
  datatype Outcome = Answered(reply: Reply) | NoResponse

  /** A rejection reason. The interceptor rejects with a plain `Error`, whose
      only member is its message; `TransportError` is the axios error shape
      (with an optional `response`) that the pages' error handlers look into. */
  datatype Thrown = PlainError(message: string) | TransportError(response: Option<Reply>)

  /** How the caller's promise settles. */
  datatype Settled = Resolved(value: Body) | Rejected(error: Thrown)

  /** What the client does that can be observed: requests it issues and
      navigations it forces. */
  datatype Event = Sent(request: Request) | Navigated(location: string)

  /** The settlement of one call, everything it did, and how many transport
      outcomes it consumed. */
  datatype Exchange = Exchange(result: Settled, events: seq<Event>, used: nat)

  const Fallback := "An error occurred"
  const SignInPage := "/auth/signin"
  const RefreshRequest := Request(Post, "/api/auth/refresh", None)
  const LogoutRequest := Request(Post, "/api/auth/logout", None)
  const GetMeRequest := Request(Get, "/api/users/me", None)

  /** Statuses axios resolves with. */
  predicate IsSuccessStatus(status: int) {
    200 <= status < 300
  }

  /** `response?.data?.error?.message` when it is a non-empty string. */
  function ServerMessage(response: Option<Reply>): (m: Option<string>)
    ensures m.Some? ==> m.value != ""
    ensures m.Some? <==> response.Some? && response.value.body.Envelope?
                         && response.value.body.error.Some?
                         && response.value.body.error.value.message.Some?
                         && response.value.body.error.value.message.value != ""
    ensures m.Some? ==> m == response.value.body.error.value.message
  {
    if response.Some? && response.value.body.Envelope? && response.value.body.error.Some?
       && response.value.body.error.value.message.Some? && response.value.body.error.value.message.value != ""
    then response.value.body.error.value.message
    else None
  }

  /** The normalised error message: the server's message, or the fallback
      literal when there is none (no response, no envelope, empty message). */
  function ErrorMessage(response: Option<Reply>): (m: string)
    ensures m != ""
    ensures ServerMessage(response).Some? ==> m == ServerMessage(response).value
    ensures ServerMessage(response).None? ==> m == Fallback
  {
    match ServerMessage(response)
    case Some(text) => text
    case None => Fallback
  }

  /** One call through the response interceptor, as a function of the
      transport outcomes still to come. A 2xx reply resolves with its body
      (unwrapped one level). A 401 issues the refresh request through the
      same client; if that resolves, the original request is issued again
      unchanged and its settlement is the call's; if it rejects, the client
      navigates to the sign-in page (when there is a window) and the call
      rejects with the 401's normalised message. Every other failure rejects
      at once. There is no retry marker: a 401 on the re-issued request goes
      through the same steps again. When the script is exhausted the
      transport is taken to give no response. */
  function Run(req: Request, script: seq<Outcome>, hasWindow: bool): (x: Exchange)
    decreases |script|, 1
    ensures x.used <= |script| && (script != [] ==> x.used > 0)
    ensures |x.events| > 0 && x.events[0] == Sent(req)
    ensures x.result.Rejected? ==> x.result.error.PlainError? && x.result.error.message != ""
  {
    if script == [] then
      Exchange(Rejected(PlainError(ErrorMessage(None))), [Sent(req)], 0)
    else if script[0].Answered? && IsSuccessStatus(script[0].reply.status) then
      Exchange(Resolved(script[0].reply.body), [Sent(req)], 1)
    else if script[0].Answered? && script[0].reply.status == 401 then
      Recover(req, script, Run(RefreshRequest, script[1..], hasWindow), hasWindow)
    else
      Exchange(Rejected(PlainError(ErrorMessage(if script[0].Answered? then Some(script[0].reply) else None))),
               [Sent(req)], 1)
  }

  /** The 401 branch of `Run` on `script`, once the refresh call has settled
      as `refresh` says: re-issue `req` if it resolved, otherwise navigate to
      the sign-in page and reject with the 401's message. */
  function Recover(req: Request, script: seq<Outcome>, refresh: Exchange, hasWindow: bool): (x: Exchange)
    requires |script| > 0 && script[0].Answered? && refresh.used < |script|
    decreases |script|, 0
    ensures 1 + refresh.used <= x.used <= |script|
    ensures |x.events| > 0 && x.events[0] == Sent(req)
    ensures x.result.Rejected? ==> x.result.error.PlainError? && x.result.error.message != ""
  {
    var at := 1 + refresh.used;
    if refresh.result.Resolved? then
      var retry := Run(req, script[at..], hasWindow);
      Exchange(retry.result, [Sent(req)] + refresh.events + retry.events, at + retry.used)
    else
      Exchange(Rejected(PlainError(ErrorMessage(Some(script[0].reply)))),
               [Sent(req)] + refresh.events + (if hasWindow then [Navigated(SignInPage)] else []),
               at)
  }

  /** Whatever a call resolves with is the body of some 2xx reply of the
      transport, passed on as it is. */
  lemma {:induction false} ResolvedBodyWasSent(req: Request, script: seq<Outcome>, hasWindow: bool)
    ensures var x := Run(req, script, hasWindow);
            x.result.Resolved? ==>
              exists i :: 0 <= i < |script| && script[i].Answered?
                          && IsSuccessStatus(script[i].reply.status) && script[i].reply.body == x.result.value
    decreases |script|
  {
    var x := Run(req, script, hasWindow);
    if script != [] && script[0].Answered? && script[0].reply.status == 401 {
      var refresh := Run(RefreshRequest, script[1..], hasWindow);
      var at := 1 + refresh.used;
      assert x == Recover(req, script, refresh, hasWindow);
      if refresh.result.Resolved? && x.result.Resolved? {
        var rest := script[at..];
        assert x.result == Run(req, rest, hasWindow).result;
        ResolvedBodyWasSent(req, rest, hasWindow);
        var j :| 0 <= j < |rest| && rest[j].Answered?
                 && IsSuccessStatus(rest[j].reply.status) && rest[j].reply.body == x.result.value;
        assert script[at + j] == rest[j];
      }
    } else if x.result.Resolved? {
      assert script[0].Answered? && IsSuccessStatus(script[0].reply.status);
    }
  }

  /** The client instance: the transport outcomes still to come and the log
      of what it has done. */
  class Client {
    var pending: seq<Outcome>
    var log: seq<Event>
    const hasWindow: bool

    constructor (outcomes: seq<Outcome>, hasWindow: bool)
      ensures pending == outcomes && log == [] && this.hasWindow == hasWindow
    {
      pending := outcomes;
      log := [];
      this.hasWindow := hasWindow;
    }

    /** Issues `req` through the response interceptor. */
    method Send(req: Request) returns (r: Settled)
      modifies this
      decreases |pending|
      ensures r == Run(req, old(pending), hasWindow).result
      ensures log == old(log) + Run(req, old(pending), hasWindow).events
      ensures pending == old(pending)[Run(req, old(pending), hasWindow).used..]
    {
      ghost var script := pending;
      ghost var before := log;
      log := log + [Sent(req)];
      if pending == [] {
        r := Rejected(PlainError(ErrorMessage(None)));
        return;
      }
      var outcome := pending[0];
      pending := pending[1..];
      if outcome.Answered? && IsSuccessStatus(outcome.reply.status) {
        r := Resolved(outcome.reply.body);  // the interceptor returns response.data
        return;
      }
      if outcome.Answered? && outcome.reply.status == 401 {
        ghost var refresh := Run(RefreshRequest, pending, hasWindow);
        assert Run(req, script, hasWindow) == Recover(req, script, refresh, hasWindow);
        var refreshed := Send(RefreshRequest);
        assert pending == script[1 + refresh.used..];
        if refreshed.Resolved? {
          ghost var retry := Run(req, pending, hasWindow);
          r := Send(req);  // the retry's promise is returned, not awaited
          Concat3(before, [Sent(req)], refresh.events, retry.events);
          assert pending == script[1 + refresh.used + retry.used..];
          return;
        }
        log := log + if hasWindow then [Navigated(SignInPage)] else [];  // window.location.href = '/auth/signin'
        Concat3(before, [Sent(req)], refresh.events, if hasWindow then [Navigated(SignInPage)] else []);
        r := Rejected(PlainError(ErrorMessage(Some(outcome.reply))));
        return;
      }
      r := Rejected(PlainError(ErrorMessage(if outcome.Answered? then Some(outcome.reply) else None)));
    }
  }

  lemma Concat3<T>(a: seq<T>, b: seq<T>, c: seq<T>, d: seq<T>)
    ensures a + b + c + d == a + (b + c + d)
  {
  }

  /** A 2xx reply resolves the call with the reply's body, after one request
      and with nothing else done. */
  lemma SuccessUnwrapsOnce(req: Request, reply: Reply, tail: seq<Outcome>, hasWindow: bool)
    requires IsSuccessStatus(reply.status)
    ensures Run(req, [Answered(reply)] + tail, hasWindow) == Exchange(Resolved(reply.body), [Sent(req)], 1)
  {
  }

  /** A failure other than a 401, including no response at all, rejects at
      once with the normalised message and issues no refresh. */
  lemma OtherFailureRejectsAtOnce(req: Request, outcome: Outcome, tail: seq<Outcome>, hasWindow: bool)
    requires !(outcome.Answered? && (IsSuccessStatus(outcome.reply.status) || outcome.reply.status == 401))
    ensures var x := Run(req, [outcome] + tail, hasWindow);
            x.result == Rejected(PlainError(ErrorMessage(if outcome.Answered? then Some(outcome.reply) else None)))
            && x.events == [Sent(req)] && x.used == 1
  {
  }

  /** A 401 whose refresh call resolved, however that call went (it may
      itself have met a 401 and refreshed): the original request is issued
      again unchanged on the outcomes the refresh left, and the call settles
      as the re-issued request does. Its rejection is passed on as it is:
      this call adds no navigation and no message of its own. */
  lemma RefreshThenReissue(req: Request, script: seq<Outcome>, hasWindow: bool)
    requires |script| > 0 && script[0].Answered? && script[0].reply.status == 401
    ensures var refresh := Run(RefreshRequest, script[1..], hasWindow);
            var x := Run(req, script, hasWindow);
            refresh.result.Resolved? ==>
              var retry := Run(req, script[1 + refresh.used..], hasWindow);
              x.result == retry.result
              && x.events == [Sent(req)] + refresh.events + retry.events
              && x.used == 1 + refresh.used + retry.used
  {
  }

  /** A 401 whose refresh call rejected, however that call went: the client
      navigates to the sign-in page (when there is a window) after everything
      the refresh did, and the call rejects with the normalised message of the
      original 401. */
  lemma RefreshFailureRedirects(req: Request, script: seq<Outcome>, hasWindow: bool)
    requires |script| > 0 && script[0].Answered? && script[0].reply.status == 401
    ensures var refresh := Run(RefreshRequest, script[1..], hasWindow);
            var x := Run(req, script, hasWindow);
            refresh.result.Rejected? ==>
              x.result == Rejected(PlainError(ErrorMessage(Some(script[0].reply))))
              && x.events == [Sent(req)] + refresh.events + (if hasWindow then [Navigated(SignInPage)] else [])
              && x.used == 1 + refresh.used
  {
  }

  /** The plain case: a 401 followed by a 2xx answer to the refresh issues
      exactly the refresh request, then the original request unchanged. */
  lemma RefreshOnceThenReissue(req: Request, unauthorized: Reply, refreshed: Reply, tail: seq<Outcome>, hasWindow: bool)
    requires unauthorized.status == 401 && IsSuccessStatus(refreshed.status)
    ensures var x := Run(req, [Answered(unauthorized), Answered(refreshed)] + tail, hasWindow);
            var retry := Run(req, tail, hasWindow);
            x.result == retry.result
            && x.events == [Sent(req), Sent(RefreshRequest)] + retry.events
            && x.used == 2 + retry.used
  {
    var script := [Answered(unauthorized), Answered(refreshed)] + tail;
    assert script[1..] == [Answered(refreshed)] + tail;
    SuccessUnwrapsOnce(RefreshRequest, refreshed, tail, hasWindow);
    RefreshThenReissue(req, script, hasWindow);
    assert script[2..] == tail;
  }

  /** The plain case: a 401 followed by a refresh that fails without a 401
      of its own issues the refresh, navigates once, and rejects. */
  lemma RefreshFailsOnceRedirects(req: Request, unauthorized: Reply, refresh: Outcome, tail: seq<Outcome>, hasWindow: bool)
    requires unauthorized.status == 401
    requires !(refresh.Answered? && (IsSuccessStatus(refresh.reply.status) || refresh.reply.status == 401))
    ensures var x := Run(req, [Answered(unauthorized), refresh] + tail, hasWindow);
            x.result == Rejected(PlainError(ErrorMessage(Some(unauthorized))))
            && x.events == [Sent(req), Sent(RefreshRequest)] + (if hasWindow then [Navigated(SignInPage)] else [])
            && x.used == 2
  {
    var script := [Answered(unauthorized), refresh] + tail;
    assert script[1..] == [refresh] + tail;
    OtherFailureRejectsAtOnce(RefreshRequest, refresh, tail, hasWindow);
    RefreshFailureRedirects(req, script, hasWindow);
  }

  /** The refresh request goes through the same interceptor: when it meets a
      401 itself, it refreshes again, and when that second refresh fails each
      level navigates to the sign-in page, so the page is loaded twice (with a
      window) before the call rejects with the first 401's message. */
  lemma RefreshUnauthorizedRedirectsTwice(req: Request, first: Reply, second: Reply, last: Outcome,
                                          tail: seq<Outcome>, hasWindow: bool)
    requires first.status == 401 && second.status == 401
    requires !(last.Answered? && (IsSuccessStatus(last.reply.status) || last.reply.status == 401))
    ensures var nav := if hasWindow then [Navigated(SignInPage)] else [];
            var x := Run(req, [Answered(first), Answered(second), last] + tail, hasWindow);
            x.result == Rejected(PlainError(ErrorMessage(Some(first))))
            && x.events == [Sent(req), Sent(RefreshRequest), Sent(RefreshRequest)] + nav + nav
            && x.used == 3
  {
    var script := [Answered(first), Answered(second), last] + tail;
    assert script[1..] == [Answered(second), last] + tail;
    RefreshFailsOnceRedirects(RefreshRequest, second, last, tail, hasWindow);
    RefreshFailureRedirects(req, script, hasWindow);
  }

  /** Nothing marks a request as already retried: when the re-issued request
      meets a 401 again, a second refresh is issued and the request goes out
      a third time. */
  lemma SecondUnauthorizedRefreshesAgain(req: Request, body: Body, hasWindow: bool)
    ensures var unauthorized := Answered(Reply(401, OtherJson));
            var refreshed := Answered(Reply(200, OtherJson));
            var x := Run(req, [unauthorized, refreshed, unauthorized, refreshed, Answered(Reply(200, body))], hasWindow);
            x.result == Resolved(body)
            && x.events == [Sent(req), Sent(RefreshRequest), Sent(req), Sent(RefreshRequest), Sent(req)]
  {
    var unauthorized := Reply(401, OtherJson);
    var refreshed := Reply(200, OtherJson);
    var last: seq<Outcome> := [Answered(Reply(200, body))];
    var middle: seq<Outcome> := [Answered(unauthorized), Answered(refreshed)] + last;
    var script: seq<Outcome> := [Answered(unauthorized), Answered(refreshed)] + middle;
    SuccessUnwrapsOnce(req, Reply(200, body), [], hasWindow);
    assert last == [Answered(Reply(200, body))] + [];
    RefreshOnceThenReissue(req, unauthorized, refreshed, last, hasWindow);
    RefreshOnceThenReissue(req, unauthorized, refreshed, middle, hasWindow);
    assert script == [Answered(unauthorized), Answered(refreshed), Answered(unauthorized), Answered(refreshed), Answered(Reply(200, body))];
  }

  /** The text an error banner shows: `err.response?.data?.error?.message`,
      else the page's own fallback. */
  function Banner(err: Thrown, fallback: string): (text: string)
    ensures err.TransportError? && ServerMessage(err.response).Some? ==> text == ServerMessage(err.response).value
    ensures err.TransportError? && ServerMessage(err.response).None? ==> text == fallback
    ensures err.PlainError? ==> text == fallback
  {
    match err
    case PlainError(_) => fallback
    case TransportError(response) =>
      match ServerMessage(response)
      case Some(text) => text
      case None => fallback
  }

  /** Every rejection the interceptor produces is a plain `Error` with no
      `response`, so a page banner built from `err.response` always shows the
      page's fallback text, whatever message the server sent. */
  lemma BannerShowsFallback(req: Request, script: seq<Outcome>, hasWindow: bool, fallback: string)
    ensures var x := Run(req, script, hasWindow);
            x.result.Rejected? ==> Banner(x.result.error, fallback) == fallback
  {
  }

  /** `/api/users/${userId}`, and so on: a path made of fixed segments around
      the caller's identifier. */
  function Around(prefix: string, id: string, suffix: string): (path: string)
    ensures Unwrap(prefix, path, suffix) == Some(id)
  {
    var path := prefix + id + suffix;
    assert path[..|prefix|] == prefix;
    assert path[|path| - |suffix|..] == suffix;
    assert path[|prefix|..|path| - |suffix|] == id;
    path
  }

  /** The identifier between `prefix` and `suffix`, when `path` has them. */
  function Unwrap(prefix: string, path: string, suffix: string): (id: Option<string>)
    ensures id.Some? ==> prefix + id.value + suffix == path
  {
    if |prefix| + |suffix| <= |path| && path[..|prefix|] == prefix && path[|path| - |suffix|..] == suffix then
      var id := path[|prefix|..|path| - |suffix|];
      assert prefix + id + suffix == path;
      Some(id)
    else None
  }

  function UserPath(userId: string): (path: string)
    ensures Unwrap("/api/users/", path, "") == Some(userId)
  {
    Around("/api/users/", userId, "")
  }

  function RemoveSkillPath(userSkillId: int): (path: string)
    ensures var id := Unwrap("/api/users/me/skills/", path, "");
            id.Some? && ParseInt(id.value) == Some(userSkillId)
  {
    IntRoundTrip(userSkillId);
    Around("/api/users/me/skills/", IntToString(userSkillId), "")
  }

  function SessionPath(sessionId: string): (path: string)
    ensures Unwrap("/api/sessions/", path, "") == Some(sessionId)
  {
    Around("/api/sessions/", sessionId, "")
  }

  function CancelSessionPath(sessionId: string): (path: string)
    ensures Unwrap("/api/sessions/", path, "/cancel") == Some(sessionId)
  {
    Around("/api/sessions/", sessionId, "/cancel")
  }

  function ParticipantPath(sessionId: string, userId: string): (path: string)
    ensures |userId| <= |path| && path[|path| - |userId|..] == userId
    ensures Unwrap("/api/sessions/", path[..|path| - |userId|], "/participants/") == Some(sessionId)
  {
    var head := Around("/api/sessions/", sessionId, "/participants/");
    var path := head + userId;
    assert path[..|path| - |userId|] == head;
    path
  }

  function MarkReadPath(messageId: int): (path: string)
    ensures var id := Unwrap("/api/messages/", path, "/read");
            id.Some? && ParseInt(id.value) == Some(messageId)
  {
    IntRoundTrip(messageId);
    Around("/api/messages/", IntToString(messageId), "/read")
  }
}

=== FILE: auth.dfy ===
/** The auth hook of src/hooks/useAuth.ts over the auth store. The store
    itself is not part of this model: it is reduced to the two fields the
    hook writes (`user`, `isLoading`) and a trace of the calls the hook makes
    on the store, the client and the browser. How the store derives
    `isAuthenticated`, and what its `logout` does beyond clearing the user,
    is not claimed. The result of each request is an input: it is what the
    client of api.ts settled with. */
module Auth {
  import opened Text
  import Api

  /** The user record is opaque here: whatever the `data` member carried. */
  type User = string

  datatype Step =
    | SetLoading(on: bool)
    | SetUser(user: Option<User>)
    | StoreLogout
    | Call(request: Api.Request)
    | Navigate(location: string)
    | LogError

  /** `setUser(response.data)`: the `data` member of the body the client
      resolved with; a body without one stores nothing (undefined). A `null`
      body has no members to read: the read throws, and `FetchThrows` sends
      the hooks to their `catch` before this is used. */
  function UserOf(body: Api.Body): (u: Option<User>)
    ensures u.Some? ==> body.Envelope? && body.data == u
    ensures body.Envelope? ==> u == body.data
    ensures !body.Envelope? ==> u == None
  {
    if body.Envelope? then body.data else None
  }

  /** Whether the `try` block of `checkAuth` and `refreshUser` throws before
      `setUser` runs: the request rejected, or it resolved with a `null`
      body, whose `data` cannot be read. */
  predicate FetchThrows(getMe: Api.Settled) {
    getMe.Rejected? || getMe.value.Null?
  }

  class AuthState {
    var user: Option<User>
    var isLoading: bool
    var trace: seq<Step>
    const hasWindow: bool

    constructor (user: Option<User>, isLoading: bool, hasWindow: bool)
      ensures this.user == user && this.isLoading == isLoading && this.hasWindow == hasWindow
      ensures trace == []
    {
      this.user := user;
      this.isLoading := isLoading;
      this.hasWindow := hasWindow;
      trace := [];
    }

    /** The mount effect fetches only when no user is cached and no fetch is
        marked as loading. */
    predicate MountFetches()
      reads this
    {
      user.None? && !isLoading
    }

    /** The effect run once on mount. */
    method OnMount(getMe: Api.Settled)
      modifies this
      ensures old(MountFetches()) ==>
                isLoading == false && user == CheckAuthUser(getMe) && trace == old(trace) + CheckAuthSteps(getMe)
      ensures !old(MountFetches()) ==> user == old(user) && isLoading == old(isLoading) && trace == old(trace)
    {
      if user.None? && !isLoading {
        CheckAuth(getMe);
      }
    }

    /** `checkAuth`: raise the loading flag, fetch the current user, store it
        (or null on failure), and lower the flag in `finally`. */
    method CheckAuth(getMe: Api.Settled)
      modifies this
      ensures !isLoading
      ensures user == CheckAuthUser(getMe)
      ensures trace == old(trace) + CheckAuthSteps(getMe)
    {
      isLoading := true;
      trace := trace + [SetLoading(true), Call(Api.GetMeRequest)];
      if FetchThrows(getMe) {
        user := None;
        trace := trace + [SetUser(None)];
      } else {
        user := UserOf(getMe.value);
        trace := trace + [SetUser(UserOf(getMe.value))];
      }
      isLoading := false;
      trace := trace + [SetLoading(false)];
    }

    /** `logout`: call the logout endpoint, log its failure if any, then in
        `finally` clear the store and go to the root page. */
    method Logout(outcome: Api.Settled)
      modifies this
      ensures user == None && isLoading == old(isLoading)
      ensures trace == old(trace) + LogoutSteps(outcome, hasWindow)
    {
      trace := trace + [Call(Api.LogoutRequest)];
      if outcome.Rejected? {
        trace := trace + [LogError];
      }
      user := None;
      trace := trace + [StoreLogout];
      if hasWindow {
        trace := trace + [Navigate("/")];
      }
    }

    /** `refreshUser`: fetch the current user again without touching the
        loading flag; a failure is only logged. */
    method RefreshUser(getMe: Api.Settled)
      modifies this
      ensures isLoading == old(isLoading)
      ensures FetchThrows(getMe) ==> user == old(user) && trace == old(trace) + [Call(Api.GetMeRequest), LogError]
      ensures !FetchThrows(getMe) ==> user == UserOf(getMe.value)
                                      && trace == old(trace) + [Call(Api.GetMeRequest), SetUser(UserOf(getMe.value))]
    {
      trace := trace + [Call(Api.GetMeRequest)];
      if FetchThrows(getMe) {
        trace := trace + [LogError];
      } else {
        user := UserOf(getMe.value);
        trace := trace + [SetUser(UserOf(getMe.value))];
      }
    }
  }

  /** The user `checkAuth` leaves in the store: the fetched one on success,
      none on any failure (the `catch` stores null). */
  function CheckAuthUser(getMe: Api.Settled): (u: Option<User>)
    ensures FetchThrows(getMe) ==> u == None
    ensures getMe.Resolved? ==> u == UserOf(getMe.value)
    ensures u.Some? ==> getMe.Resolved? && getMe.value.Envelope? && getMe.value.data == u
  {
    if FetchThrows(getMe) then None else UserOf(getMe.value)
  }

  /** The calls `checkAuth` makes: the loading flag goes up before the
      request and down after the user is stored, whatever the outcome. */
  function CheckAuthSteps(getMe: Api.Settled): (steps: seq<Step>)
    ensures |steps| == 4
    ensures steps[0] == SetLoading(true) && steps[1] == Call(Api.GetMeRequest)
    ensures steps[2] == SetUser(CheckAuthUser(getMe)) && steps[3] == SetLoading(false)
  {
    [SetLoading(true), Call(Api.GetMeRequest), SetUser(CheckAuthUser(getMe)), SetLoading(false)]
  }

  /** The calls `logout` makes: the store is cleared and the root page is
      loaded whether or not the logout request failed. */
  function LogoutSteps(outcome: Api.Settled, hasWindow: bool): (steps: seq<Step>)
    ensures |steps| >= 2 && steps[0] == Call(Api.LogoutRequest)
    ensures StoreLogout in steps && (hasWindow ==> steps[|steps| - 1] == Navigate("/"))
    ensures LogError in steps <==> outcome.Rejected?
  {
    [Call(Api.LogoutRequest)] + (if outcome.Rejected? then [LogError] else [])
    + [StoreLogout] + (if hasWindow then [Navigate("/")] else [])
  }

  /** A user fetch that fails because the refresh cascade of the client
      failed leaves no user in the store. */
  lemma FailedRefreshCascadeClearsUser(script: seq<Api.Outcome>, hasWindow: bool)
    requires |script| >= 2 && script[0] == Api.Answered(Api.Reply(401, Api.OtherJson))
    requires script[1] == Api.NoResponse
    ensures var x := Api.Run(Api.GetMeRequest, script, hasWindow);
            x.result.Rejected? && CheckAuthUser(x.result) == None
  {
    Api.RefreshFailsOnceRedirects(Api.GetMeRequest, Api.Reply(401, Api.OtherJson), Api.NoResponse, script[2..], hasWindow);
    assert script == [Api.Answered(Api.Reply(401, Api.OtherJson)), Api.NoResponse] + script[2..];
  }
}

=== FILE: avatar_upload.dfy ===
/** The avatar uploader, src/components/profile/AvatarUpload.tsx: the type
    and size checks on the chosen file, the preview, and the upload and
    cancel paths. Reading the file into a data URL is asynchronous: it is
    started by `HandleFileSelect` and finished by `PreviewLoaded`. */
module AvatarUpload {
  import opened Text
  import Api

  const NotAnImage := "Please select an image file"
  const TooLarge := "Image size must be less than 5MB"
  const UploadFailed := "Failed to upload avatar"

  /** Five mebibytes, the largest size accepted. */
  const MaxAvatarBytes := 5 * 1024 * 1024

  /** A chosen file: its MIME type and its size in bytes. */
  datatype File = File(mimeType: string, size: int)

  /** The message `handleFileSelect` sets: the type is checked before the
      size; `None` for an acceptable file. */
  function FileError(file: File): (e: Option<string>)
    ensures e.None? <==> StartsWith(file.mimeType, "image/") && file.size <= MaxAvatarBytes
    ensures e == Some(NotAnImage) <==> !StartsWith(file.mimeType, "image/")
    ensures e == Some(TooLarge) <==> StartsWith(file.mimeType, "image/") && file.size > MaxAvatarBytes
  {
    if !StartsWith(file.mimeType, "image/") then Some(NotAnImage)
    else if file.size > 5 * 1024 * 1024 then Some(TooLarge)
    else None
  }

  /** The size limit is inclusive: exactly 5 MiB passes, one byte more fails. */
  lemma SizeLimitIsInclusive(mimeType: string)
    requires StartsWith(mimeType, "image/")
    ensures FileError(File(mimeType, 5242880)).None?
    ensures FileError(File(mimeType, 5242881)) == Some(TooLarge)
  {
  }

  /** `preview || currentAvatar`: the preview when there is a non-empty
      one, the current avatar otherwise. */
  function DisplayAvatar(preview: Option<string>, currentAvatar: Option<string>): (shown: Option<string>)
    ensures preview.Some? && preview.value != "" ==> shown == preview
    ensures !(preview.Some? && preview.value != "") ==> shown == currentAvatar
  {
    if preview.Some? && preview.value != "" then preview else currentAvatar
  }

  class AvatarUploader {
    /** The file held by the hidden file input. */
    var inputFile: Option<File>
    var preview: Option<string>
    var error: Option<string>
    /** Files whose data URL is being read for the preview, oldest first. */
    var readQueue: seq<File>
    /** Files handed to the upload mutation, oldest first. */
    var uploads: seq<File>

    constructor ()
      ensures inputFile == None && preview == None && error == None && readQueue == [] && uploads == []
    {
      inputFile := None;
      preview := None;
      error := None;
      readQueue := [];
      uploads := [];
    }

    /** `handleFileSelect`: the input now holds `chosen`. With no file
        nothing else changes; a file of the wrong type or size sets its
        message; an acceptable file clears the error and starts the read. */
    method HandleFileSelect(chosen: Option<File>)
      modifies this
      ensures inputFile == chosen && preview == old(preview) && uploads == old(uploads)
      ensures chosen.None? ==> error == old(error) && readQueue == old(readQueue)
      ensures chosen.Some? && FileError(chosen.value).Some? ==> error == FileError(chosen.value) && readQueue == old(readQueue)
      ensures chosen.Some? && FileError(chosen.value).None? ==> error == None && readQueue == old(readQueue) + [chosen.value]
    {
      inputFile := chosen;
      if chosen.None? {
        return;
      }
      var file := chosen.value;
      if !StartsWith(file.mimeType, "image/") {
        error := Some(NotAnImage);
        return;
      }
      if file.size > 5 * 1024 * 1024 {
        error := Some(TooLarge);
        return;
      }
      error := None;
      readQueue := readQueue + [file];
    }

    /** The reader's `onloadend`, which fires only for a read that was
        started: the oldest pending read finishes and its data URL becomes
        the preview. */
    method PreviewLoaded(dataUrl: string)
      requires |readQueue| > 0
      modifies this
      ensures preview == Some(dataUrl)
      ensures readQueue == old(readQueue)[1..]
      ensures inputFile == old(inputFile) && error == old(error) && uploads == old(uploads)
    {
      readQueue := readQueue[1..];
      preview := Some(dataUrl);
    }

    /** `handleUpload`: upload the input's file, or do nothing without one. */
    method HandleUpload()
      modifies this
      ensures inputFile.None? ==> uploads == old(uploads)
      ensures inputFile.Some? ==> uploads == old(uploads) + [inputFile.value]
      ensures inputFile == old(inputFile) && preview == old(preview) && error == old(error) && readQueue == old(readQueue)
    {
      if inputFile.None? {
        return;
      }
      uploads := uploads + [inputFile.value];
    }

    /** `handleCancel`: drop the preview and the error and empty the input. */
    method HandleCancel()
      modifies this
      ensures preview == None && error == None && inputFile == None
      ensures readQueue == old(readQueue) && uploads == old(uploads)
    {
      preview := None;
      error := None;
      inputFile := None;
    }

    /** The mutation's `onSuccess`: drop the preview and the error; the
        input keeps its file. */
    method OnUploadSuccess()
      modifies this
      ensures preview == None && error == None
      ensures inputFile == old(inputFile) && readQueue == old(readQueue) && uploads == old(uploads)
    {
      preview := None;
      error := None;
    }

    /** The mutation's `onError`. */
    method OnUploadError(err: Api.Thrown)
      modifies this
      ensures error == Some(Api.Banner(err, UploadFailed))
      ensures err.PlainError? ==> error == Some(UploadFailed)
      ensures inputFile == old(inputFile) && preview == old(preview) && readQueue == old(readQueue) && uploads == old(uploads)
    {
      error := Some(Api.Banner(err, UploadFailed));
    }
  }

  /** After a cancel the current avatar is shown again. */
  lemma CancelShowsCurrentAvatar(currentAvatar: Option<string>)
    ensures DisplayAvatar(None, currentAvatar) == currentAvatar
  {
  }
}

=== FILE: create_session.dfy ===
/** The session-creation page of src/app/sessions/create/page.tsx: the
    ordered validation of `handleSubmit`, the request it builds, and the
    participant list kept by `toggleParticipant` and the role selector.
    Times are milliseconds since the epoch; an empty datetime field is
    `None`. */
module CreateSession {
  import opened Text
  import opened Types
  import Api

  const TitleRequired := "Title is required"
  const TimesRequired := "Start and end times are required"
  const StartInPast := "Start time must be in the future"
  const EndBeforeStart := "End time must be after start time"
  const OneOnOneCount := "One-on-one sessions require exactly 1 other participant"
  const GroupCount := "Group sessions require 1-3 other participants"
  const CreateFailed := "Failed to create session"

  /** An invited user: `{ user_id, role }`. */
  datatype Participant = Participant(userId: string, role: Role)

  /** The skill part of the request: `skill_id`, `custom_skill_name`, or
      neither; one constructor per case, so never both. */
  datatype SkillChoice = SkillId(id: int) | CustomSkill(name: string) | NoSkill

  /** The body given to `api.sessions.create`. */
  datatype Payload = Payload(
    title: string,
    description: Option<string>,
    skill: SkillChoice,
    sessionType: SessionType,
    start: int,
    end: int,
    participants: seq<Participant>)

  /** How many other participants a session type admits. */
  predicate CountAllowed(kind: SessionType, count: nat) {
    match kind
    case OneOnOne => count == 1
    case Group => 1 <= count <= 3
  }

  /** Every rule `handleSubmit` checks, order aside. */
  predicate Acceptable(title: string, start: Option<int>, end: Option<int>, now: int, kind: SessionType, count: nat) {
    !IsBlank(title) && start.Some? && end.Some? && now < start.value < end.value && CountAllowed(kind, count)
  }

  /** The message `handleSubmit` sets: the first failed check in the order
      title, both times present, start after now, end after start,
      participant count; `None` when all pass. */
  function FirstError(title: string, start: Option<int>, end: Option<int>, now: int, kind: SessionType, count: nat): (e: Option<string>)
    ensures e.None? <==> Acceptable(title, start, end, now, kind, count)
  {
    if Trim(title) == "" then Some(TitleRequired)
    else if start.None? || end.None? then Some(TimesRequired)
    else if start.value <= now then Some(StartInPast)
    else if end.value <= start.value then Some(EndBeforeStart)
    else if kind == OneOnOne && count != 1 then Some(OneOnOneCount)
    else if kind == Group && (count < 1 || count > 3) then Some(GroupCount)
    else None
  }

  /** Each message is set only when every earlier check passed and its own
      failed: the first failure wins. */
  lemma FirstFailureWins(title: string, start: Option<int>, end: Option<int>, now: int, kind: SessionType, count: nat)
    ensures var e := FirstError(title, start, end, now, kind, count);
            && (e == Some(TitleRequired) <==> IsBlank(title))
            && (e == Some(TimesRequired) <==> !IsBlank(title) && (start.None? || end.None?))
            && (e == Some(StartInPast) <==> !IsBlank(title) && start.Some? && end.Some? && start.value <= now)
            && (e == Some(EndBeforeStart) <==>
                  !IsBlank(title) && start.Some? && end.Some? && now < start.value && end.value <= start.value)
            && (e == Some(OneOnOneCount) <==>
                  !IsBlank(title) && start.Some? && end.Some? && now < start.value < end.value && kind == OneOnOne && count != 1)
            && (e == Some(GroupCount) <==>
                  !IsBlank(title) && start.Some? && end.Some? && now < start.value < end.value && kind == Group && !(1 <= count <= 3))
  {
  }

  /** `skillId ? { skill_id } : customSkill ? { custom_skill_name } : {}`. */
  function ChooseSkill(skillId: Option<int>, customSkill: string): (c: SkillChoice)
    ensures c.SkillId? <==> IsTruthy(skillId)
    ensures c.SkillId? ==> c.id == skillId.value && c.id != 0
    ensures c.CustomSkill? <==> !IsTruthy(skillId) && customSkill != ""
    ensures c.CustomSkill? ==> c.name == customSkill
  {
    if IsTruthy(skillId) then SkillId(skillId.value)
    else if customSkill != "" then CustomSkill(customSkill)
    else NoSkill
  }

  /** The request body of an accepted submission. */
  function MakePayload(title: string, description: string, skillId: Option<int>, customSkill: string,
                       kind: SessionType, start: int, end: int, participants: seq<Participant>): (p: Payload)
    ensures p.title == Trim(title)
    ensures p.description.None? <==> IsBlank(description)
    ensures p.description.Some? ==> p.description.value == Trim(description)
    ensures p.skill == ChooseSkill(skillId, customSkill)
    ensures p.sessionType == kind && p.start == start && p.end == end && p.participants == participants
  {
    Payload(Trim(title), TrimOrOmit(description), ChooseSkill(skillId, customSkill), kind, start, end, participants)
  }

  predicate HasUser(ps: seq<Participant>, userId: string) {
    exists i :: 0 <= i < |ps| && ps[i].userId == userId
  }

  /** No user is invited twice. */
  predicate UniqueIds(ps: seq<Participant>) {
    forall i, j :: 0 <= i < j < |ps| ==> ps[i].userId != ps[j].userId
  }

  /** `ps.filter(p => p.user_id !== userId)`. */
  function RemoveUser(ps: seq<Participant>, userId: string): (r: seq<Participant>)
    ensures |r| <= |ps|
    ensures forall p :: p in r <==> p in ps && p.userId != userId
    ensures !HasUser(r, userId)
  {
    if ps == [] then []
    else if ps[0].userId == userId then RemoveUser(ps[1..], userId)
    else [ps[0]] + RemoveUser(ps[1..], userId)
  }

  /** Filtering out a user who is not listed changes nothing. */
  lemma {:induction false} RemoveAbsent(ps: seq<Participant>, userId: string)
    requires !HasUser(ps, userId)
    ensures RemoveUser(ps, userId) == ps
  {
    if ps != [] {
      assert ps[0].userId != userId;
      assert !HasUser(ps[1..], userId) by {
        forall i | 0 <= i < |ps[1..]| ensures ps[1..][i].userId != userId {
          assert ps[1..][i] == ps[i + 1];
        }
      }
      RemoveAbsent(ps[1..], userId);
      assert [ps[0]] + ps[1..] == ps;
    }
  }

  /** The filter keeps a list of distinct users distinct. */
  lemma {:induction false} RemoveKeepsUnique(ps: seq<Participant>, userId: string)
    requires UniqueIds(ps)
    ensures UniqueIds(RemoveUser(ps, userId))
  {
    if ps != [] {
      var tail := ps[1..];
      TailUnique(ps);
      RemoveKeepsUnique(tail, userId);
      if ps[0].userId != userId {
        var rest := RemoveUser(tail, userId);
        assert !HasUser(rest, ps[0].userId) by {
          forall i | 0 <= i < |rest| ensures rest[i].userId != ps[0].userId {
            assert rest[i] in tail;
          }
        }
        ConsUnique(ps[0], rest);
      }
    }
  }

  /** Putting an unlisted user in front of a list of distinct users keeps
      it distinct. */
  lemma ConsUnique(p: Participant, ps: seq<Participant>)
    requires UniqueIds(ps) && !HasUser(ps, p.userId)
    ensures UniqueIds([p] + ps)
  {
    var r := [p] + ps;
    forall i, j | 0 <= i < j < |r| ensures r[i].userId != r[j].userId {
      assert r[j] == ps[j - 1];
      if i > 0 {
        assert r[i] == ps[i - 1];
      }
    }
  }

  /** The tail of a list of distinct users is a list of distinct users. */
  lemma TailUnique(ps: seq<Participant>)
    requires UniqueIds(ps) && ps != []
    ensures UniqueIds(ps[1..]) && !HasUser(ps[1..], ps[0].userId)
  {
    var tail := ps[1..];
    forall i, j | 0 <= i < j < |tail| ensures tail[i].userId != tail[j].userId {
      assert tail[i] == ps[i + 1] && tail[j] == ps[j + 1];
    }
    forall i | 0 <= i < |tail| ensures tail[i].userId != ps[0].userId {
      assert tail[i] == ps[i + 1];
    }
  }

  /** Removing a user found at index `k` of a list without duplicates drops
      that one entry and keeps the others in their order. */
  lemma {:induction false} RemoveAt(ps: seq<Participant>, k: nat)
    requires UniqueIds(ps) && k < |ps|
    ensures RemoveUser(ps, ps[k].userId) == ps[..k] + ps[k + 1..]
  {
    var tail := ps[1..];
    TailUnique(ps);
    if k == 0 {
      RemoveAbsent(tail, ps[0].userId);
    } else {
      assert tail[k - 1] == ps[k];
      RemoveAt(tail, k - 1);
      var rest := RemoveUser(tail, ps[k].userId);
      assert ps[0].userId != ps[k].userId;
      assert RemoveUser(ps, ps[k].userId) == [ps[0]] + rest;
      ConsWithout(ps, k);
    }
  }

  /** Dropping index `k - 1` of the tail and putting the head back drops
      index `k` of the whole list. */
  lemma ConsWithout<T>(s: seq<T>, k: nat)
    requires 0 < k < |s|
    ensures [s[0]] + (s[1..][..k - 1] + s[1..][k..]) == s[..k] + s[k + 1..]
  {
    assert s[1..][..k - 1] == s[1..k];
    assert s[1..][k..] == s[k + 1..];
    assert s[..k] == [s[0]] + s[1..k];
  }

  /** `toggleParticipant`: a listed user is removed, an unlisted one is
      appended with the given role. */
  function Toggle(ps: seq<Participant>, userId: string, role: Role): (r: seq<Participant>)
    ensures HasUser(ps, userId) ==> r == RemoveUser(ps, userId) && !HasUser(r, userId)
    ensures !HasUser(ps, userId) ==> r == ps + [Participant(userId, role)]
    ensures HasUser(r, userId) <==> !HasUser(ps, userId)
    ensures UniqueIds(ps) ==> UniqueIds(r)
  {
    if HasUser(ps, userId) then
      if UniqueIds(ps) then RemoveKeepsUnique(ps, userId); RemoveUser(ps, userId)
      else RemoveUser(ps, userId)
    else
      var r := ps + [Participant(userId, role)];
      assert r[|ps|].userId == userId;
      assert UniqueIds(ps) ==> UniqueIds(r) by {
        if UniqueIds(ps) {
          forall i, j | 0 <= i < j < |r| ensures r[i].userId != r[j].userId {
            if j == |ps| {
              assert r[i] == ps[i];
            }
          }
        }
      }
      r
  }

  /** Toggling an unlisted user twice gives back the original list. */
  lemma ToggleTwice(ps: seq<Participant>, userId: string, role: Role, role2: Role)
    requires !HasUser(ps, userId)
    ensures Toggle(Toggle(ps, userId, role), userId, role2) == ps
  {
    var once := ps + [Participant(userId, role)];
    assert once[|ps|].userId == userId;
    RemoveLast(ps, Participant(userId, role));
  }

  /** Filtering out the user of a last entry that no earlier entry shares
      drops just that entry. */
  lemma {:induction false} RemoveLast(ps: seq<Participant>, p: Participant)
    requires !HasUser(ps, p.userId)
    ensures RemoveUser(ps + [p], p.userId) == ps
  {
    if ps != [] {
      var tail := ps[1..];
      assert (ps + [p])[1..] == tail + [p];
      assert !HasUser(tail, p.userId) by {
        forall i | 0 <= i < |tail| ensures tail[i].userId != p.userId {
          assert tail[i] == ps[i + 1];
        }
      }
      RemoveLast(tail, p);
      assert ps[0].userId != p.userId;
      assert [ps[0]] + tail == ps;
    }
  }

  /** The role selector's `map`: the matching entry gets the new role,
      every other entry is kept as it was. */
  function SetRole(ps: seq<Participant>, userId: string, role: Role): (r: seq<Participant>)
    ensures |r| == |ps|
    ensures forall i :: 0 <= i < |ps| ==> r[i].userId == ps[i].userId
    ensures forall i :: 0 <= i < |ps| && ps[i].userId != userId ==> r[i] == ps[i]
    ensures forall i :: 0 <= i < |ps| && ps[i].userId == userId ==> r[i].role == role
  {
    if ps == [] then []
    else
      var p := ps[0];
      [if p.userId == userId then p.(role := role) else p] + SetRole(ps[1..], userId, role)
  }

  /** A role change keeps who is invited, and so keeps the ids unique. */
  lemma SetRoleKeepsUsers(ps: seq<Participant>, userId: string, role: Role, other: string)
    ensures HasUser(SetRole(ps, userId, role), other) <==> HasUser(ps, other)
    ensures UniqueIds(ps) ==> UniqueIds(SetRole(ps, userId, role))
  {
    var r := SetRole(ps, userId, role);
    if HasUser(ps, other) {
      var i :| 0 <= i < |ps| && ps[i].userId == other;
      assert r[i].userId == other;
    }
    if HasUser(r, other) {
      var i :| 0 <= i < |r| && r[i].userId == other;
      assert ps[i].userId == other;
    }
  }

  /** The form's state. */
  class CreateSessionForm {
    var title: string
    var description: string
    var skillId: Option<int>
    var customSkill: string
    var sessionType: SessionType
    var scheduledStart: Option<int>
    var scheduledEnd: Option<int>
    var selected: seq<Participant>
    var error: Option<string>
    /** The requests handed to the create mutation, oldest first. */
    var submitted: seq<Payload>

    /** The handlers keep the invited ids unique, and never leave both a
        predefined skill and a custom name chosen. */
    predicate Valid()
      reads this
    {
      UniqueIds(selected) && (skillId.None? || customSkill == "")
    }

    constructor ()
      ensures Valid()
      ensures title == "" && description == "" && skillId == None && customSkill == ""
      ensures sessionType == OneOnOne && scheduledStart == None && scheduledEnd == None
      ensures selected == [] && error == None && submitted == []
    {
      title := "";
      description := "";
      skillId := None;
      customSkill := "";
      sessionType := OneOnOne;
      scheduledStart := None;
      scheduledEnd := None;
      selected := [];
      error := None;
      submitted := [];
    }

    /** `handleSubmit`: clear the error, stop at the first failed check with
        its message, otherwise hand the request to the mutation. */
    method HandleSubmit(now: int)
      modifies this
      ensures error == FirstError(title, scheduledStart, scheduledEnd, now, sessionType, |selected|)
      ensures error.None? ==>
                submitted == old(submitted) + [MakePayload(title, description, skillId, customSkill, sessionType,
                                                           scheduledStart.value, scheduledEnd.value, selected)]
      ensures error.Some? ==> submitted == old(submitted)
      ensures title == old(title) && description == old(description) && skillId == old(skillId)
      ensures customSkill == old(customSkill) && sessionType == old(sessionType) && selected == old(selected)
      ensures scheduledStart == old(scheduledStart) && scheduledEnd == old(scheduledEnd)
    {
      error := None;
      if Trim(title) == "" {
        error := Some(TitleRequired);
        return;
      }
      if scheduledStart.None? || scheduledEnd.None? {
        error := Some(TimesRequired);
        return;
      }
      var start := scheduledStart.value;
      var end := scheduledEnd.value;
      if start <= now {
        error := Some(StartInPast);
        return;
      }
      if end <= start {
        error := Some(EndBeforeStart);
        return;
      }
      if sessionType == OneOnOne && |selected| != 1 {
        error := Some(OneOnOneCount);
        return;
      }
      if sessionType == Group && (|selected| < 1 || |selected| > 3) {
        error := Some(GroupCount);
        return;
      }
      submitted := submitted + [MakePayload(title, description, skillId, customSkill, sessionType, start, end, selected)];
    }

    /** `toggleParticipant` (the checkbox passes the role 'LEARNER'). */
    method ToggleParticipant(userId: string, role: Role)
      requires Valid()
      modifies this
      ensures Valid()
      ensures selected == Toggle(old(selected), userId, role)
      ensures HasUser(selected, userId) <==> !HasUser(old(selected), userId)
      ensures skillId == old(skillId) && customSkill == old(customSkill) && error == old(error) && submitted == old(submitted)
      ensures title == old(title) && description == old(description) && sessionType == old(sessionType)
      ensures scheduledStart == old(scheduledStart) && scheduledEnd == old(scheduledEnd)
    {
      selected := Toggle(selected, userId, role);
    }

    /** The role selector of an invited user. */
    method ChangeRole(userId: string, role: Role)
      requires Valid()
      modifies this
      ensures Valid()
      ensures selected == SetRole(old(selected), userId, role)
      ensures skillId == old(skillId) && customSkill == old(customSkill) && error == old(error) && submitted == old(submitted)
      ensures title == old(title) && description == old(description) && sessionType == old(sessionType)
      ensures scheduledStart == old(scheduledStart) && scheduledEnd == old(scheduledEnd)
    {
      SetRoleKeepsUsers(selected, userId, role, userId);
      selected := SetRole(selected, userId, role);
    }

    /** Picking an option of the skill select: its id, or `None` for the
        placeholder; the custom name is cleared. */
    method SelectSkill(picked: Option<int>)
      requires Valid()
      modifies this
      ensures Valid()
      ensures skillId == picked && customSkill == ""
      ensures selected == old(selected) && error == old(error) && submitted == old(submitted)
      ensures title == old(title) && description == old(description) && sessionType == old(sessionType)
      ensures scheduledStart == old(scheduledStart) && scheduledEnd == old(scheduledEnd)
    {
      skillId := picked;
      customSkill := "";
    }

    /** Typing in the custom skill input clears the selected id. */
    method TypeCustomSkill(text: string)
      requires Valid()
      modifies this
      ensures Valid()
      ensures customSkill == text && skillId == None
      ensures selected == old(selected) && error == old(error) && submitted == old(submitted)
      ensures title == old(title) && description == old(description) && sessionType == old(sessionType)
      ensures scheduledStart == old(scheduledStart) && scheduledEnd == old(scheduledEnd)
    {
      customSkill := text;
      skillId := None;
    }

    /** The mutation's `onError`. */
    method OnCreateError(err: Api.Thrown)
      requires Valid()
      modifies this
      ensures Valid()
      ensures error == Some(Api.Banner(err, CreateFailed))
      ensures err.PlainError? ==> error == Some(CreateFailed)
      ensures selected == old(selected) && submitted == old(submitted)
      ensures skillId == old(skillId) && customSkill == old(customSkill)
      ensures title == old(title) && description == old(description) && sessionType == old(sessionType)
      ensures scheduledStart == old(scheduledStart) && scheduledEnd == old(scheduledEnd)
    {
      error := Some(Api.Banner(err, CreateFailed));
    }
  }

  /** Under the form's invariant a request never names both a predefined
      skill and a custom one, and a custom one only when no id is chosen. */
  lemma PayloadSkillExclusive(skillId: Option<int>, customSkill: string)
    requires skillId.None? || customSkill == ""
    ensures var c := ChooseSkill(skillId, customSkill);
            (c.SkillId? ==> customSkill == "") && (c.CustomSkill? ==> skillId.None?)
  {
  }

  /** Every accepted submission starts after `now`, ends after it starts,
      and invites as many users as its type admits. */
  lemma AcceptedIsScheduledAhead(title: string, start: Option<int>, end: Option<int>, now: int, kind: SessionType, count: nat)
    requires FirstError(title, start, end, now, kind, count).None?
    ensures start.Some? && end.Some? && now < start.value < end.value
    ensures kind == OneOnOne ==> count == 1
    ensures kind == Group ==> 1 <= count <= 3
    ensures Trim(title) != ""
  {
  }
}

=== FILE: profile_edit.dfy ===
/** The profile edit page, src/app/profile/edit/page.tsx: the form is filled
    from the loaded profile, checked (name, then bio) on submit, and turned
    into the update request. */
module ProfileEdit {
  import opened Text
  import Api

  const NameTooShort := "Name must be at least 2 characters"
  const BioTooLong := "Bio must be less than 1000 characters"
  const UpdateFailed := "Failed to update profile"

  /** The shortest name accepted, counted after trimming. */
  const MinNameLength := 2
  /** The longest bio accepted, counted before trimming. */
  const MaxBioLength := 1000

  /** The fields of the loaded profile the form reads; any may be missing. */
  datatype Profile = Profile(name: Option<string>, bio: Option<string>, timezone: Option<string>)

  /** The body given to `api.users.updateMe`; omitted fields are `None`. */
  datatype UpdateRequest = UpdateRequest(name: string, bio: Option<string>, timezone: Option<string>)

  /** `value || ''`. */
  function OrEmpty(value: Option<string>): (s: string)
    ensures value.Some? ==> s == value.value
    ensures value.None? ==> s == ""
  {
    if value.Some? then value.value else ""
  }

  /** The message `handleSubmit` sets: the trimmed name is checked first,
      then the untrimmed length of the bio; `None` when both pass. */
  function ProfileError(name: string, bio: string): (e: Option<string>)
    ensures e.None? <==> |Trim(name)| >= MinNameLength && |bio| <= MaxBioLength
    ensures e == Some(NameTooShort) <==> |Trim(name)| < MinNameLength
    ensures e == Some(BioTooLong) <==> |Trim(name)| >= MinNameLength && |bio| > MaxBioLength
  {
    if |Trim(name)| < 2 then Some(NameTooShort)
    else if |bio| > 1000 then Some(BioTooLong)
    else None
  }

  /** The update request: the trimmed name, the trimmed bio or nothing when
      it is blank, the time zone or nothing when it is empty. */
  function UpdatePayload(name: string, bio: string, timezone: string): (req: UpdateRequest)
    ensures req.name == Trim(name)
    ensures req.bio.None? <==> IsBlank(bio)
    ensures req.bio.Some? ==> req.bio.value == Trim(bio)
    ensures req.timezone.None? <==> timezone == ""
    ensures req.timezone.Some? ==> req.timezone.value == timezone
  {
    UpdateRequest(Trim(name), TrimOrOmit(bio), if timezone == "" then None else Some(timezone))
  }

  /** A request that passed the checks carries a name of at least two
      characters with no surrounding space, and a bio of at most a thousand. */
  lemma AcceptedRequestWithinLimits(name: string, bio: string, timezone: string)
    requires ProfileError(name, bio).None?
    ensures var req := UpdatePayload(name, bio, timezone);
            |req.name| >= MinNameLength && !IsSpace(req.name[0]) && !IsSpace(req.name[|req.name| - 1])
            && (req.bio.Some? ==> 0 < |req.bio.value| <= MaxBioLength)
  {
  }

  /** The bio limit is inclusive: a thousand characters pass, one more fails. */
  lemma BioLimitIsInclusive(name: string, bio: string)
    requires |Trim(name)| >= MinNameLength
    ensures |bio| == 1000 ==> ProfileError(name, bio).None?
    ensures |bio| == 1001 ==> ProfileError(name, bio) == Some(BioTooLong)
  {
  }

  class ProfileForm {
    var name: string
    var bio: string
    var timezone: string
    var error: Option<string>
    /** The requests handed to the update mutation, oldest first. */
    var sent: seq<UpdateRequest>

    constructor ()
      ensures name == "" && bio == "" && timezone == "" && error == None && sent == []
    {
      name := "";
      bio := "";
      timezone := "";
      error := None;
      sent := [];
    }

    /** The effect that runs when the profile arrives: each field takes the
        profile's value, or '' when it is missing; nothing happens while no
        profile is loaded. */
    method Initialize(profile: Option<Profile>)
      modifies this
      ensures profile.Some? ==> name == OrEmpty(profile.value.name) && bio == OrEmpty(profile.value.bio)
                                && timezone == OrEmpty(profile.value.timezone)
      ensures profile.None? ==> name == old(name) && bio == old(bio) && timezone == old(timezone)
      ensures error == old(error) && sent == old(sent)
    {
      if profile.Some? {
        name := OrEmpty(profile.value.name);
        bio := OrEmpty(profile.value.bio);
        timezone := OrEmpty(profile.value.timezone);
      }
    }

    /** `handleSubmit`: clear the error, stop at the first failed check with
        its message, otherwise hand the request to the mutation. */
    method HandleSubmit()
      modifies this
      ensures error == ProfileError(name, bio)
      ensures error.None? ==> sent == old(sent) + [UpdatePayload(name, bio, timezone)]
      ensures error.Some? ==> sent == old(sent)
      ensures name == old(name) && bio == old(bio) && timezone == old(timezone)
    {
      error := None;
      if |Trim(name)| < 2 {
        error := Some(NameTooShort);
        return;
      }
      if |bio| > 1000 {
        error := Some(BioTooLong);
        return;
      }
      sent := sent + [UpdatePayload(name, bio, timezone)];
    }

    /** The mutation's `onError`. */
    method OnUpdateError(err: Api.Thrown)
      modifies this
      ensures error == Some(Api.Banner(err, UpdateFailed))
      ensures err.PlainError? ==> error == Some(UpdateFailed)
      ensures name == old(name) && bio == old(bio) && timezone == old(timezone) && sent == old(sent)
    {
      error := Some(Api.Banner(err, UpdateFailed));
    }
  }
}

=== FILE: review_form.dfy ===
/** The review form, src/components/reviews/ReviewForm.tsx: a star rating
    picked by clicking (and previewed by hovering), an optional text, and
    the request sent on submit. */
module ReviewForm {
  import opened Text
  import Api

  const RatingRequired := "Please select a rating"
  const ReviewFailed := "Failed to submit review"

  /** The number of stars drawn. */
  const StarCount := 5

  /** The body given to `api.reviews.create`. */
  datatype ReviewRequest = ReviewRequest(sessionId: string, revieweeId: string, rating: int, reviewText: Option<string>)

  /** `star <= (hoverRating || rating)`: while hovering the hovered star
      decides, otherwise the chosen rating. */
  predicate StarHighlighted(star: int, hoverRating: int, rating: int) {
    star <= (if hoverRating != 0 then hoverRating else rating)
  }

  /** The highlighted stars are always the first ones: exactly the stars up
      to the hovered star, or up to the rating when nothing is hovered. */
  lemma HighlightIsPrefix(hoverRating: int, rating: int, star: int, lower: int)
    requires 1 <= lower <= star
    ensures StarHighlighted(star, hoverRating, rating) ==> StarHighlighted(lower, hoverRating, rating)
    ensures hoverRating != 0 ==> (StarHighlighted(star, hoverRating, rating) <==> star <= hoverRating)
    ensures hoverRating == 0 ==> (StarHighlighted(star, hoverRating, rating) <==> star <= rating)
  {
  }

  /** The caption under the stars: nothing until a star is chosen; one word
      per star value; an empty caption for any other positive value. */
  function RatingLabel(rating: int): (caption: Option<string>)
    ensures caption.None? <==> rating <= 0
    ensures caption.Some? && caption.value != "" ==> 1 <= rating <= StarCount
    ensures rating == 1 ==> caption == Some("Poor")
    ensures rating == 2 ==> caption == Some("Fair")
    ensures rating == 3 ==> caption == Some("Good")
    ensures rating == 4 ==> caption == Some("Very Good")
    ensures rating == 5 ==> caption == Some("Excellent")
    ensures rating > StarCount ==> caption == Some("")
  {
    if rating <= 0 then None
    else if rating == 1 then Some("Poor")
    else if rating == 2 then Some("Fair")
    else if rating == 3 then Some("Good")
    else if rating == 4 then Some("Very Good")
    else if rating == 5 then Some("Excellent")
    else Some("")
  }

  /** The five captions are distinct, so the caption tells the rating. */
  lemma RatingLabelsDistinct(a: int, b: int)
    requires 1 <= a <= StarCount && 1 <= b <= StarCount
    ensures RatingLabel(a).Some? && RatingLabel(a).value != ""
    ensures RatingLabel(a) == RatingLabel(b) ==> a == b
  {
  }

  /** The submit button is disabled while a request is pending or before a
      star is chosen. */
  predicate SubmitDisabled(pending: bool, rating: int) {
    pending || rating == 0
  }

  /** With the rating kept in range, the button is enabled exactly when no
      request is pending and a star has been chosen, which is exactly when
      a click would send a request. */
  lemma SubmitEnabledOnlyWhenRated(pending: bool, rating: int)
    requires 0 <= rating <= StarCount
    ensures !SubmitDisabled(pending, rating) <==> !pending && 1 <= rating <= StarCount
  {
  }

  class ReviewFormState {
    const sessionId: string
    const revieweeId: string
    var rating: int
    var hoverRating: int
    var reviewText: string
    var error: Option<string>
    /** The requests handed to the create mutation, oldest first. */
    var sent: seq<ReviewRequest>

    /** The ratings are 0 (none yet) or a star value. */
    predicate Valid()
      reads this
    {
      0 <= rating <= StarCount && 0 <= hoverRating <= StarCount
    }

    constructor (sessionId: string, revieweeId: string)
      ensures Valid()
      ensures this.sessionId == sessionId && this.revieweeId == revieweeId
      ensures rating == 0 && hoverRating == 0 && reviewText == "" && error == None && sent == []
    {
      this.sessionId := sessionId;
      this.revieweeId := revieweeId;
      rating := 0;
      hoverRating := 0;
      reviewText := "";
      error := None;
      sent := [];
    }

    /** Clicking one of the five stars. */
    method ClickStar(star: int)
      requires Valid() && 1 <= star <= StarCount
      modifies this
      ensures Valid() && rating == star
      ensures hoverRating == old(hoverRating) && reviewText == old(reviewText) && sent == old(sent) && error == old(error)
    {
      rating := star;
    }

    /** The mouse pointer entering one of the five stars. */
    method HoverStar(star: int)
      requires Valid() && 1 <= star <= StarCount
      modifies this
      ensures Valid() && hoverRating == star
      ensures rating == old(rating) && reviewText == old(reviewText) && sent == old(sent) && error == old(error)
    {
      hoverRating := star;
    }

    /** The mouse pointer leaving a star. */
    method LeaveStar()
      requires Valid()
      modifies this
      ensures Valid() && hoverRating == 0
      ensures rating == old(rating) && reviewText == old(reviewText) && sent == old(sent) && error == old(error)
    {
      hoverRating := 0;
    }

    /** `handleSubmit`: clear the error; without a rating set the message
        and send nothing, otherwise send the ids unchanged, the rating and
        the trimmed text (omitted when blank). */
    method HandleSubmit()
      requires Valid()
      modifies this
      ensures Valid()
      ensures old(rating) == 0 ==> error == Some(RatingRequired) && sent == old(sent)
      ensures old(rating) != 0 ==> error == None
                                   && sent == old(sent) + [ReviewRequest(sessionId, revieweeId, rating, TrimOrOmit(reviewText))]
      ensures rating == old(rating) && hoverRating == old(hoverRating) && reviewText == old(reviewText)
    {
      error := None;
      if rating == 0 {
        error := Some(RatingRequired);
        return;
      }
      sent := sent + [ReviewRequest(sessionId, revieweeId, rating, TrimOrOmit(reviewText))];
    }

    /** The mutation's `onError`. */
    method OnError(err: Api.Thrown)
      modifies this
      ensures error == Some(Api.Banner(err, ReviewFailed))
      ensures err.PlainError? ==> error == Some(ReviewFailed)
      ensures rating == old(rating) && hoverRating == old(hoverRating) && reviewText == old(reviewText)
      ensures sent == old(sent)
    {
      error := Some(Api.Banner(err, ReviewFailed));
    }
  }

  /** Every request the form sends carries a rating from one to five, and a
      review text that is trimmed and non-empty when present. */
  lemma SentReviewsAreRated(sessionId: string, revieweeId: string, rating: int, reviewText: string)
    requires 0 <= rating <= StarCount && rating != 0
    ensures var req := ReviewRequest(sessionId, revieweeId, rating, TrimOrOmit(reviewText));
            1 <= req.rating <= StarCount && (req.reviewText.Some? ==> req.reviewText.value == Trim(reviewText) != "")
            && (req.reviewText.None? <==> IsBlank(reviewText))
  {
  }
}

=== FILE: search.dfy ===
/** The state of the search page, src/app/search/page.tsx: the typed text,
    the skill searched for, the teach/learn filter, the page number and the
    autocomplete flag, with the handlers that update them and the query the
    page sends. */
module Search {
  import opened Text
  import opened Types
  import SkillCatalog

  /** Results per page. */
  const PageLimit := 20
  /** Entries in the autocomplete dropdown. */
  const DropdownSize := 10

  /** The teach/learn filter: '' (all) or one skill type. */
  datatype TypeFilter = AnyType | Only(skillType: SkillType)

  /** The parameters of `api.matches.search`; `skillType` is omitted for
      the unfiltered search. */
  datatype SearchParams = SearchParams(skill: string, skillType: Option<SkillType>, page: int, limit: int)

  /** The search query: disabled until a skill has been chosen. */
  function SearchQuery(selectedSkill: string, filter: TypeFilter, page: int): (q: Option<SearchParams>)
    ensures q.None? <==> selectedSkill == ""
    ensures q.Some? ==> q.value.skill == selectedSkill && q.value.page == page && q.value.limit == PageLimit
    ensures q.Some? ==> (q.value.skillType.None? <==> filter.AnyType?)
    ensures q.Some? && filter.Only? ==> q.value.skillType == Some(filter.skillType)
  {
    if selectedSkill == "" then None
    else Some(SearchParams(selectedSkill, if filter.AnyType? then None else Some(filter.skillType), page, PageLimit))
  }

  /** The dropdown: hidden unless the autocomplete flag is on and some skill
      matches; then the first ten matches, in catalogue order. */
  function Dropdown(skills: seq<Skill>, skillQuery: string, showAutocomplete: bool): (shown: seq<Skill>)
    ensures |shown| <= DropdownSize
    ensures !showAutocomplete ==> shown == []
    ensures showAutocomplete ==> var matches := SkillCatalog.FilterByName(skills, skillQuery);
              |shown| <= |matches| && shown == matches[..|shown|]
    ensures showAutocomplete && |SkillCatalog.FilterByName(skills, skillQuery)| >= DropdownSize ==> |shown| == DropdownSize
    ensures showAutocomplete && |SkillCatalog.FilterByName(skills, skillQuery)| < DropdownSize ==>
              shown == SkillCatalog.FilterByName(skills, skillQuery)
    ensures forall s :: s in shown ==> s in skills && SkillCatalog.NameMatches(s.name, skillQuery)
  {
    if !showAutocomplete then []
    else
      var matches := SkillCatalog.FilterByName(skills, skillQuery);
      var shown := Take(matches, DropdownSize);
      assert forall s :: s in shown ==> s in matches;
      shown
  }

  /** The Previous/Next buttons are drawn only for more than one page. */
  predicate ShowsPagination(totalPages: Option<int>) {
    totalPages.Some? && totalPages.value > 1
  }

  /** `Math.max(1, p - 1)`. */
  function PreviousPage(page: int): (p: int)
    ensures p >= 1
    ensures page > 1 ==> p == page - 1
    ensures page <= 1 ==> p == 1
  {
    if page - 1 < 1 then 1 else page - 1
  }

  /** `Math.min(totalPages, p + 1)`. */
  function NextPage(page: int, totalPages: int): (p: int)
    ensures p <= totalPages
    ensures page < totalPages ==> p == page + 1
    ensures page >= totalPages ==> p == totalPages
  {
    if totalPages < page + 1 then totalPages else page + 1
  }

  /** Both clamps keep a page inside `1..totalPages`. */
  lemma ClampsStayInRange(page: int, totalPages: int)
    requires 1 <= page <= totalPages
    ensures 1 <= PreviousPage(page) <= totalPages
    ensures 1 <= NextPage(page, totalPages) <= totalPages
    ensures PreviousPage(page) == page <==> page == 1
    ensures NextPage(page, totalPages) == page <==> page == totalPages
  {
  }

  class SearchState {
    var skillQuery: string
    var selectedSkill: string
    var filter: TypeFilter
    var page: int
    var showAutocomplete: bool

    /** Pages are numbered from one. */
    predicate Valid()
      reads this
    {
      page >= 1
    }

    constructor ()
      ensures Valid()
      ensures skillQuery == "" && selectedSkill == "" && filter == AnyType && page == 1 && !showAutocomplete
    {
      skillQuery := "";
      selectedSkill := "";
      filter := AnyType;
      page := 1;
      showAutocomplete := false;
    }

    /** The query the page currently runs, if any. */
    function Query(): (q: Option<SearchParams>)
      reads this
      ensures q.None? <==> selectedSkill == ""
    {
      SearchQuery(selectedSkill, filter, page)
    }

    /** `handleSearch`: search for `skill` from the first page and close the
        dropdown. */
    method HandleSearch(skill: string)
      modifies this
      ensures Valid()
      ensures selectedSkill == skill && skillQuery == skill && !showAutocomplete && page == 1
      ensures filter == old(filter)
      ensures skill != "" ==> Query() == Some(SearchParams(skill, if filter.AnyType? then None else Some(filter.skillType), 1, PageLimit))
    {
      selectedSkill := skill;
      skillQuery := skill;
      showAutocomplete := false;
      page := 1;
    }

    /** The Search button and the Enter key search for the typed text, and
        do nothing while it is empty. */
    method SubmitTyped()
      modifies this
      requires Valid()
      ensures Valid()
      ensures old(skillQuery) == "" ==> selectedSkill == old(selectedSkill) && page == old(page)
                                        && showAutocomplete == old(showAutocomplete) && skillQuery == old(skillQuery)
      ensures old(skillQuery) != "" ==> selectedSkill == old(skillQuery) && page == 1 && !showAutocomplete
                                        && skillQuery == old(skillQuery)
      ensures filter == old(filter)
    {
      if skillQuery != "" {
        HandleSearch(skillQuery);
      }
    }

    /** Choosing a dropdown entry searches for its name. */
    method PickSuggestion(skill: Skill)
      modifies this
      ensures Valid()
      ensures selectedSkill == skill.name && skillQuery == skill.name && !showAutocomplete && page == 1
      ensures filter == old(filter)
    {
      HandleSearch(skill.name);
    }

    /** `handleSkillInputChange`: the dropdown is open exactly while the
        input is non-empty; the running search is not changed. */
    method HandleSkillInputChange(value: string)
      modifies this
      requires Valid()
      ensures Valid()
      ensures skillQuery == value && (showAutocomplete <==> |value| > 0)
      ensures selectedSkill == old(selectedSkill) && filter == old(filter) && page == old(page)
    {
      skillQuery := value;
      showAutocomplete := |value| > 0;
    }

    /** A filter button; the page number is kept as it is. */
    method SetFilter(f: TypeFilter)
      modifies this
      requires Valid()
      ensures Valid()
      ensures filter == f
      ensures skillQuery == old(skillQuery) && selectedSkill == old(selectedSkill) && page == old(page)
      ensures showAutocomplete == old(showAutocomplete)
    {
      filter := f;
    }

    /** The Previous button. */
    method Previous()
      modifies this
      requires Valid()
      ensures Valid()
      ensures page == PreviousPage(old(page))
      ensures skillQuery == old(skillQuery) && selectedSkill == old(selectedSkill) && filter == old(filter)
      ensures showAutocomplete == old(showAutocomplete)
    {
      page := if 1 > page - 1 then 1 else page - 1;
    }

    /** The Next button, drawn only when there is more than one page. */
    method Next(totalPages: int)
      modifies this
      requires Valid() && ShowsPagination(Some(totalPages))
      ensures Valid()
      ensures page == NextPage(old(page), totalPages) && page <= totalPages
      ensures skillQuery == old(skillQuery) && selectedSkill == old(selectedSkill) && filter == old(filter)
      ensures showAutocomplete == old(showAutocomplete)
    {
      page := if totalPages < page + 1 then totalPages else page + 1;
    }
  }
}

=== FILE: session_card.dfy ===
/** The decisions of src/components/sessions/SessionCard.tsx: whether a
    session can be joined, which action link the card shows, how many
    participant avatars it draws, and the status badge's text and colour.
    Times are milliseconds since the epoch. */
module SessionCard {
  import opened Text
  import opened Types

  /** Ten minutes: how long before its start a scheduled session opens. */
  const JoinWindowMs := 10 * 60 * 1000

  /** How many participant avatars the card draws. */
  const PreviewSize := 3

  /** `canJoin`: in progress, or scheduled and starting within the window
      (a scheduled start already in the past included). */
  predicate CanJoin(status: SessionStatus, start: int, now: int) {
    status == InProgress || (status == Scheduled && start - now <= JoinWindowMs)
  }

  /** A scheduled session becomes joinable ten minutes before its start and
      stays joinable from then on; finished and cancelled sessions never are. */
  lemma JoinWindow(status: SessionStatus, start: int, now: int, later: int)
    requires now <= later
    ensures status == Scheduled ==> (CanJoin(status, start, now) <==> now >= start - 600000)
    ensures CanJoin(status, start, now) ==> CanJoin(status, start, later)
    ensures status == Completed || status == Cancelled ==> !CanJoin(status, start, now)
    ensures status == InProgress ==> CanJoin(status, start, now)
  {
  }

  datatype Action = JoinRoom(href: string) | ViewDetails(href: string) | NoActions

  /** The card's action area: none when actions are hidden, the room link
      when the session can be joined and is not cancelled, otherwise the
      details link. */
  function CardAction(sessionId: string, status: SessionStatus, start: int, now: int, showActions: bool): (a: Action)
    ensures a.NoActions? <==> !showActions
    ensures a.JoinRoom? <==> showActions && CanJoin(status, start, now) && status != Cancelled
    ensures a.JoinRoom? ==> a.href == "/sessions/" + sessionId + "/room"
    ensures a.ViewDetails? ==> a.href == "/sessions/" + sessionId
  {
    if !showActions then NoActions
    else if CanJoin(status, start, now) && status != Cancelled then JoinRoom("/sessions/" + sessionId + "/room")
    else ViewDetails("/sessions/" + sessionId)
  }

  /** Completed and cancelled sessions always get the details link, and the
      test against CANCELLED never decides anything: a cancelled session
      cannot be joined in the first place. */
  lemma FinishedSessionsShowDetails(sessionId: string, status: SessionStatus, start: int, now: int)
    requires status == Completed || status == Cancelled
    ensures CardAction(sessionId, status, start, now, true) == ViewDetails("/sessions/" + sessionId)
  {
  }

  /** `participants.slice(0, 3)`: the participants drawn as avatars. */
  function Preview<T>(participants: seq<T>): (shown: seq<T>)
    ensures |shown| <= PreviewSize && |shown| <= |participants|
    ensures shown == participants[..|shown|]
    ensures |participants| >= PreviewSize ==> |shown| == PreviewSize
    ensures |participants| < PreviewSize ==> shown == participants
  {
    Take(participants, PreviewSize)
  }

  /** The "+N more" badge: present exactly when more than three take part. */
  function Overflow(count: nat): (more: Option<nat>)
    ensures more.Some? <==> count > PreviewSize
    ensures more.Some? ==> more.value > 0
  {
    if count > PreviewSize then Some(count - PreviewSize) else None
  }

  /** The avatars drawn and the number in the badge account for every
      participant exactly once. */
  lemma PreviewAndOverflowCoverAll<T>(participants: seq<T>)
    ensures var more := Overflow(|participants|);
            |Preview(participants)| + (if more.Some? then more.value else 0) == |participants|
  {
  }

  /** `{n} participant{n !== 1 ? 's' : ''}`, shown only when the list is
      present and non-empty. */
  function ParticipantLabel(count: Option<nat>): (text: Option<string>)
    ensures text.Some? <==> count.Some? && count.value > 0
    ensures text.Some? ==> var digits := IntToString(count.value);
              |text.value| == |digits| + 12 + (if count.value != 1 then 1 else 0)
              && ParseInt(text.value[..|digits|]) == Some(count.value as int)
              && text.value[|digits|..|digits| + 12] == " participant"
              && (text.value[|text.value| - 1] == 's' <==> count.value != 1)
  {
    if count.None? || count.value == 0 then None
    else
      var n := count.value;
      var s := IntToString(n) + " participant" + (if n != 1 then "s" else "");
      IntRoundTrip(n);
      assert s[..|IntToString(n)|] == IntToString(n);
      assert s[|IntToString(n)|..|IntToString(n)| + 12] == " participant";
      Some(s)
  }

  /** The index of the first `c` at or after `i` in `s`, or `|s|`. */
  function FirstIndex(s: string, c: char, i: nat): (k: nat)
    requires i <= |s|
    ensures i <= k <= |s|
    ensures forall j :: i <= j < k ==> s[j] != c
    ensures k < |s| ==> s[k] == c
    decreases |s| - i
  {
    if i == |s| || s[i] == c then i else FirstIndex(s, c, i + 1)
  }

  /** `s.replace(from, to)` with a one-character pattern: the first
      occurrence is replaced, every other character is kept. */
  function ReplaceFirst(s: string, from: char, to: char): (r: string)
    ensures |r| == |s|
    ensures from !in s ==> r == s
    ensures forall j :: 0 <= j < |s| && s[j] == from && from !in s[..j] ==> r[j] == to
    ensures forall j :: 0 <= j < |s| && (s[j] != from || from in s[..j]) ==> r[j] == s[j]
  {
    var k := FirstIndex(s, from, 0);
    if k == |s| then s
    else
      var r := s[..k] + [to] + s[k + 1..];
      forall j | 0 <= j < |s| && j != k ensures r[j] == s[j] {
        if j < k { assert r[j] == s[..k][j]; } else { assert r[j] == s[k + 1..][j - k - 1]; }
      }
      assert s[..k + 1][k] == from;
      r
  }

  /** The badge text: the status's wire name with its first underscore
      turned into a space. */
  function StatusLabel(status: SessionStatus): (text: string)
    ensures |text| == |StatusName(status)|
  {
    ReplaceFirst(StatusName(status), '_', ' ')
  }

  /** Only IN_PROGRESS has an underscore; its label reads 'IN PROGRESS'. */
  lemma InProgressLabel()
    ensures StatusLabel(InProgress) == "IN PROGRESS"
  {
    var n := StatusName(InProgress);
    var r := StatusLabel(InProgress);
    forall j | 0 <= j < 11 && j != 2 ensures r[j] == n[j] {
      assert n[j] != '_';
    }
  }

  /** The other statuses have no underscore and keep their names. */
  lemma PlainStatusLabels(status: SessionStatus)
    requires status != InProgress
    ensures StatusLabel(status) == StatusName(status)
  {
    assert '_' !in StatusName(status);
  }

  /** `statusColors[status]`: one class list per status. */
  function StatusColor(status: SessionStatus): (classes: string)
    ensures classes != ""
  {
    match status
    case Scheduled => "bg-blue-100 text-blue-700"
    case InProgress => "bg-green-100 text-green-700"
    case Completed => "bg-gray-100 text-gray-700"
    case Cancelled => "bg-red-100 text-red-700"
  }

  /** The colour table covers every status and tells them all apart. */
  lemma StatusColorsDistinct(a: SessionStatus, b: SessionStatus)
    ensures StatusColor(a) == StatusColor(b) ==> a == b
  {
  }
}

=== FILE: skill_catalog.dfy ===
/** The case-insensitive look-ups over the predefined skill catalogue that
    the search page (src/app/search/page.tsx) and the skills editor
    (src/components/profile/SkillsEditor.tsx) both perform: the `includes`
    filter behind their suggestion lists and the exact-name `find`. */
module SkillCatalog {
  import opened Text
  import opened Types

  /** `name.toLowerCase().includes(query.toLowerCase())`. */
  predicate NameMatches(name: string, query: string) {
    Contains(Lower(name), Lower(query))
  }

  /** `skills.filter(s => NameMatches(s.name, query))`. */
  function FilterByName(skills: seq<Skill>, query: string): (kept: seq<Skill>)
    ensures |kept| <= |skills|
    ensures forall s :: s in kept <==> s in skills && NameMatches(s.name, query)
  {
    if skills == [] then []
    else if NameMatches(skills[0].name, query) then [skills[0]] + FilterByName(skills[1..], query)
    else FilterByName(skills[1..], query)
  }

  /** The filter works entry by entry, so it keeps the catalogue's order:
      filtering a concatenation concatenates the filtered parts. */
  lemma {:induction false} FilterKeepsOrder(a: seq<Skill>, b: seq<Skill>, query: string)
    ensures FilterByName(a + b, query) == FilterByName(a, query) + FilterByName(b, query)
  {
    if a == [] {
      assert a + b == b;
    } else {
      var ab := a + b;
      assert ab[0] == a[0] && ab[1..] == a[1..] + b;
      FilterKeepsOrder(a[1..], b, query);
      if NameMatches(a[0].name, query) {
        calc {
          FilterByName(ab, query);
          [a[0]] + FilterByName(a[1..] + b, query);
          [a[0]] + (FilterByName(a[1..], query) + FilterByName(b, query));
          ([a[0]] + FilterByName(a[1..], query)) + FilterByName(b, query);
        }
      }
    }
  }

  /** An empty query matches every name, so the filter keeps everything. */
  lemma {:induction false} EmptyQueryKeepsAll(skills: seq<Skill>)
    ensures FilterByName(skills, "") == skills
  {
    if skills != [] {
      assert Lower("") == "";
      ContainsTrivial(Lower(skills[0].name));
      EmptyQueryKeepsAll(skills[1..]);
    }
  }

  /** Names equal up to ASCII case. */
  predicate SameName(name: string, input: string) {
    Lower(name) == Lower(input)
  }

  /** The index of the first skill at or after `from` whose name equals the
      input up to case, or `|skills|`. */
  function FirstNameMatch(skills: seq<Skill>, input: string, from: nat): (k: nat)
    requires from <= |skills|
    ensures from <= k <= |skills|
    ensures forall j :: from <= j < k ==> !SameName(skills[j].name, input)
    ensures k < |skills| ==> SameName(skills[k].name, input)
    decreases |skills| - from
  {
    if from == |skills| || SameName(skills[from].name, input) then from
    else FirstNameMatch(skills, input, from + 1)
  }

  /** `skills.find(s => s.name.toLowerCase() === input.toLowerCase())`:
      the first skill whose name equals the input up to case. */
  function FindByName(skills: seq<Skill>, input: string): (found: Option<Skill>)
    ensures found.None? <==> forall i :: 0 <= i < |skills| ==> !SameName(skills[i].name, input)
    ensures found.Some? ==> exists i :: 0 <= i < |skills| && skills[i] == found.value
                                      && SameName(skills[i].name, input)
                                      && forall j :: 0 <= j < i ==> !SameName(skills[j].name, input)
  {
    var k := FirstNameMatch(skills, input, 0);
    if k == |skills| then None else Some(skills[k])
  }

  /** A skill whose name equals the input up to case also matches it as a
      filter query, so the exact match is always among the suggestions'
      candidates. */
  lemma FoundIsSuggested(skills: seq<Skill>, input: string)
    requires FindByName(skills, input).Some?
    ensures FindByName(skills, input).value in FilterByName(skills, input)
  {
    var s := FindByName(skills, input).value;
    ContainsTrivial(Lower(input));
  }
}

=== FILE: skills_editor.dfy ===
/** The add-skill form of src/components/profile/SkillsEditor.tsx: the text
    typed, the catalogue id it resolved to, the "custom skill" flag, the
    request `handleAddSkill` builds, and the paths that reset the form. */
module SkillsEditor {
  import opened Text
  import opened Types
  import SkillCatalog

  /** How many suggestions the form lists. */
  const SuggestionCount := 5

  /** The skill part of the request: a free-text name or a catalogue id. */
  datatype AddTarget = ByName(name: string) | ById(id: int)

  /** The body given to `api.skills.addToProfile`. */
  datatype AddRequest = AddRequest(skillType: SkillType, proficiency: Proficiency, target: AddTarget)

  /** The request `handleAddSkill` sends, or `None` when it returns early:
      with no text and no truthy id nothing is sent; the typed name is sent
      when the custom flag is set or no id is selected, the id otherwise. */
  function AddPayload(input: string, selectedId: Option<int>, useCustom: bool, skillType: SkillType,
                      proficiency: Proficiency): (req: Option<AddRequest>)
    ensures req.None? <==> input == "" && !IsTruthy(selectedId)
    ensures req.Some? ==> req.value.skillType == skillType && req.value.proficiency == proficiency
    ensures req.Some? ==> (req.value.target.ByName? <==> useCustom || !IsTruthy(selectedId))
    ensures req.Some? && req.value.target.ByName? ==> req.value.target.name == input
    ensures req.Some? && req.value.target.ById? ==> req.value.target.id == selectedId.value && !useCustom
  {
    if input == "" && !IsTruthy(selectedId) then None
    else if useCustom || !IsTruthy(selectedId) then Some(AddRequest(skillType, proficiency, ByName(input)))
    else Some(AddRequest(skillType, proficiency, ById(selectedId.value)))
  }

  /** The suggestion list: nothing for empty input, otherwise the first five
      catalogue skills whose name contains the input up to case. */
  function Suggestions(skills: seq<Skill>, input: string): (shown: seq<Skill>)
    ensures |shown| <= SuggestionCount
    ensures input == "" ==> shown == []
    ensures input != "" ==> var matches := SkillCatalog.FilterByName(skills, input);
              |shown| <= |matches| && shown == matches[..|shown|]
              && (|matches| >= SuggestionCount ==> |shown| == SuggestionCount)
              && (|matches| < SuggestionCount ==> shown == matches)
    ensures forall s :: s in shown ==> s in skills && SkillCatalog.NameMatches(s.name, input)
  {
    if input == "" then []
    else
      var matches := SkillCatalog.FilterByName(skills, input);
      var shown := Take(matches, SuggestionCount);
      assert forall s :: s in shown ==> s in matches;
      shown
  }

  /** `p.charAt(0) + p.slice(1).toLowerCase()`. */
  function Capitalize(s: string): (r: string)
    ensures |r| == |s|
    ensures |s| > 0 ==> r[0] == s[0]
    ensures forall i :: 1 <= i < |s| ==> r[i] == LowerChar(s[i])
  {
    if s == [] then [] else [s[0]] + Lower(s[1..])
  }

  /** The label of a proficiency level. */
  function ProficiencyLabel(p: Proficiency): (text: string)
    ensures |text| == |ProficiencyName(p)| > 0
    ensures text[0] == ProficiencyName(p)[0]
    ensures forall i :: 1 <= i < |text| ==> text[i] == LowerChar(ProficiencyName(p)[i])
  {
    Capitalize(ProficiencyName(p))
  }

  /** Capitalizing gives `t` when `t` keeps the first character and lowers
      every other one. */
  lemma CapitalizeGives(s: string, t: string)
    requires |s| == |t| && |s| > 0 && s[0] == t[0]
    requires forall i :: 1 <= i < |s| ==> LowerChar(s[i]) == t[i]
    ensures Capitalize(s) == t
  {
  }

  /** The label the editor shows for each level: the wire name with all
      but its first letter lowered. */
  lemma BeginnerLabel()
    ensures ProficiencyLabel(Beginner) == "Beginner"
  {
    CapitalizeGives("BEGINNER", "Beginner");
  }

  lemma IntermediateLabel()
    ensures ProficiencyLabel(Intermediate) == "Intermediate"
  {
    CapitalizeGives("INTERMEDIATE", "Intermediate");
  }

  lemma AdvancedLabel()
    ensures ProficiencyLabel(Advanced) == "Advanced"
  {
    CapitalizeGives("ADVANCED", "Advanced");
  }

  lemma ExpertLabel()
    ensures ProficiencyLabel(Expert) == "Expert"
  {
    CapitalizeGives("EXPERT", "Expert");
  }

  class AddSkillForm {
    var skillType: SkillType
    var showAddForm: bool
    var skillInput: string
    var proficiency: Proficiency
    var useCustom: bool
    var selectedId: Option<int>
    /** The requests handed to the add mutation, oldest first. */
    var sent: seq<AddRequest>

    /** The handlers never leave the custom flag set beside a selected id. */
    predicate Valid()
      reads this
    {
      useCustom ==> selectedId.None?
    }

    /** The form's reset state, reached on start, on Cancel and after a
        successful add. */
    predicate IsReset()
      reads this
    {
      !showAddForm && skillInput == "" && selectedId.None? && !useCustom
    }

    constructor ()
      ensures Valid() && IsReset()
      ensures skillType == Teach && proficiency == Beginner && sent == []
    {
      skillType := Teach;
      showAddForm := false;
      skillInput := "";
      proficiency := Beginner;
      useCustom := false;
      selectedId := None;
      sent := [];
    }

    /** The "+ Add Skill" button. */
    method Open()
      requires Valid()
      modifies this
      ensures Valid() && showAddForm
      ensures skillInput == old(skillInput) && selectedId == old(selectedId) && useCustom == old(useCustom)
      ensures sent == old(sent)
      ensures skillType == old(skillType) && proficiency == old(proficiency)
    {
      showAddForm := true;
    }

    /** The teach/learn tabs. */
    method SetSkillType(t: SkillType)
      requires Valid()
      modifies this
      ensures Valid() && skillType == t && proficiency == old(proficiency)
      ensures skillInput == old(skillInput) && selectedId == old(selectedId) && useCustom == old(useCustom)
      ensures showAddForm == old(showAddForm) && sent == old(sent)
    {
      skillType := t;
    }

    /** The proficiency select. */
    method SetProficiency(p: Proficiency)
      requires Valid()
      modifies this
      ensures Valid() && proficiency == p && skillType == old(skillType)
      ensures skillInput == old(skillInput) && selectedId == old(selectedId) && useCustom == old(useCustom)
      ensures showAddForm == old(showAddForm) && sent == old(sent)
    {
      proficiency := p;
    }

    /** Typing in the name input: an exact match up to case selects that
        skill's id and clears the custom flag; no match clears the id. */
    method OnInputChange(value: string, catalog: seq<Skill>)
      requires Valid()
      modifies this
      ensures Valid()
      ensures skillInput == value
      ensures var m := SkillCatalog.FindByName(catalog, value);
              (m.Some? ==> selectedId == Some(m.value.id) && !useCustom)
              && (m.None? ==> selectedId == None && useCustom == old(useCustom))
      ensures showAddForm == old(showAddForm) && sent == old(sent)
      ensures skillType == old(skillType) && proficiency == old(proficiency)
    {
      skillInput := value;
      var m := SkillCatalog.FindByName(catalog, value);
      if m.Some? {
        selectedId := Some(m.value.id);
        useCustom := false;
      } else {
        selectedId := None;
      }
    }

    /** Clicking a suggestion takes its name and id. */
    method PickSuggestion(skill: Skill)
      requires Valid()
      modifies this
      ensures Valid()
      ensures skillInput == skill.name && selectedId == Some(skill.id) && !useCustom
      ensures showAddForm == old(showAddForm) && sent == old(sent)
      ensures skillType == old(skillType) && proficiency == old(proficiency)
    {
      skillInput := skill.name;
      selectedId := Some(skill.id);
      useCustom := false;
    }

    /** The "custom skill" checkbox; checking it clears the selected id. */
    method SetCustom(checked: bool)
      requires Valid()
      modifies this
      ensures Valid()
      ensures useCustom == checked
      ensures checked ==> selectedId == None
      ensures !checked ==> selectedId == old(selectedId)
      ensures skillInput == old(skillInput) && showAddForm == old(showAddForm) && sent == old(sent)
      ensures skillType == old(skillType) && proficiency == old(proficiency)
    {
      useCustom := checked;
      if checked {
        selectedId := None;
      }
    }

    /** `handleAddSkill`. */
    method HandleAddSkill()
      requires Valid()
      modifies this
      ensures Valid()
      ensures var req := AddPayload(old(skillInput), old(selectedId), old(useCustom), old(skillType), old(proficiency));
              sent == old(sent) + (if req.Some? then [req.value] else [])
      ensures skillInput == old(skillInput) && selectedId == old(selectedId) && useCustom == old(useCustom)
      ensures showAddForm == old(showAddForm)
      ensures skillType == old(skillType) && proficiency == old(proficiency)
    {
      if skillInput == "" && !IsTruthy(selectedId) {
        return;
      }
      var target := if useCustom || !IsTruthy(selectedId) then ByName(skillInput) else ById(selectedId.value);
      sent := sent + [AddRequest(skillType, proficiency, target)];
    }

    /** The add mutation's `onSuccess`. */
    method OnAddSuccess()
      modifies this
      ensures Valid() && IsReset()
      ensures skillType == old(skillType) && proficiency == old(proficiency) && sent == old(sent)
    {
      ResetForm();
    }

    /** The Cancel button. */
    method Cancel()
      modifies this
      ensures Valid() && IsReset()
      ensures skillType == old(skillType) && proficiency == old(proficiency) && sent == old(sent)
    {
      ResetForm();
    }

    /** Hide the form and clear the text, the id and the custom flag; the
        proficiency and the tab are kept. */
    method ResetForm()
      modifies this
      ensures Valid() && IsReset()
      ensures skillType == old(skillType) && proficiency == old(proficiency) && sent == old(sent)
    {
      showAddForm := false;
      skillInput := "";
      selectedId := None;
      useCustom := false;
    }
  }

  /** Under the form's invariant an id request is never sent with the custom
      flag set, and a name request carries the typed text. */
  lemma RequestFollowsSelection(input: string, selectedId: Option<int>, useCustom: bool, t: SkillType, p: Proficiency)
    requires useCustom ==> selectedId.None?
    requires input != "" || IsTruthy(selectedId)
    ensures var req := AddPayload(input, selectedId, useCustom, t, p);
            req.Some? && (req.value.target.ById? <==> IsTruthy(selectedId))
  {
  }
}

=== FILE: text.dfy ===
/** String and value helpers shared by the pages: JavaScript's `trim`, ASCII
    `toLowerCase`, `includes`, `slice(0, n)`, truthiness of a nullable number,
    and the decimal rendering of an integer inside a template literal. */
module Text {

  datatype Option<+T> = None | Some(value: T)

  /** The code points `String.prototype.trim` removes: ECMAScript WhiteSpace
      (tab, vertical tab, form feed, space, no-break space, byte order mark
      and the Zs category) and LineTerminator (line feed, carriage return,
      line and paragraph separators). */
  predicate IsSpace(c: char) {
    ('\t' <= c <= '\r') || c == ' ' || c == '\U{00A0}' || c == '\U{1680}'
    || ('\U{2000}' <= c <= '\U{200A}') || c == '\U{2028}' || c == '\U{2029}'
    || c == '\U{202F}' || c == '\U{205F}' || c == '\U{3000}' || c == '\U{FEFF}'
  }

  /** A string that `trim` turns into '' (the falsy result the pages test). */
  predicate IsBlank(s: string) {
    forall i :: 0 <= i < |s| ==> IsSpace(s[i])
  }

  /** The index of the first non-space at or after `i`, or `|s|`. */
  function SkipSpaces(s: string, i: nat): (n: nat)
    requires i <= |s|
    ensures i <= n <= |s|
    ensures forall k :: i <= k < n ==> IsSpace(s[k])
    ensures n < |s| ==> !IsSpace(s[n])
    decreases |s| - i
  {
    if i < |s| && IsSpace(s[i]) then SkipSpaces(s, i + 1) else i
  }

  /** The index just past the last non-space before `j`, stopping at `lo`. */
  function SkipSpacesBack(s: string, lo: nat, j: nat): (n: nat)
    requires lo <= j <= |s|
    ensures lo <= n <= j
    ensures forall k :: n <= k < j ==> IsSpace(s[k])
    ensures n > lo ==> !IsSpace(s[n - 1])
    decreases j
  {
    if j > lo && IsSpace(s[j - 1]) then SkipSpacesBack(s, lo, j - 1) else j
  }

  /** `s.trim()`: the infix of `s` left once the spaces at both ends are
      dropped; it neither starts nor ends with a space, everything dropped
      is a space, and it is empty exactly when `s` is blank. */
  function Trim(s: string): (r: string)
    ensures |r| <= |s|
    ensures r == [] || (!IsSpace(r[0]) && !IsSpace(r[|r| - 1]))
    ensures r == [] <==> IsBlank(s)
    ensures exists b :: 0 <= b <= |s| - |r| && r == s[b..][..|r|]
                        && (forall k :: 0 <= k < b ==> IsSpace(s[k]))
                        && (forall k :: b + |r| <= k < |s| ==> IsSpace(s[k]))
  {
    var b := SkipSpaces(s, 0);
    var e := SkipSpacesBack(s, b, |s|);
    assert b == e ==> IsBlank(s) by {
      if b == e {
        forall k | 0 <= k < |s| ensures IsSpace(s[k]) {
          if k < b { } else { }
        }
      }
    }
    assert s[b..e] == s[b..][..e - b];
    s[b..e]
  }

  /** Trimming is idempotent: the result of `trim` has nothing left to trim. */
  lemma TrimIdempotent(s: string)
    ensures Trim(Trim(s)) == Trim(s)
  {
    var t := Trim(s);
    assert t[0..|t|] == t;
  }

  /** `s.trim() || undefined`: the trimmed text, omitted when it is empty. */
  function TrimOrOmit(s: string): (r: Option<string>)
    ensures r.None? <==> IsBlank(s)
    ensures r.Some? ==> r.value == Trim(s) && r.value != ""
  {
    var t := Trim(s);
    if t == "" then None else Some(t)
  }

  /** ASCII `toLowerCase` of one character. */
  function LowerChar(c: char): (r: char)
    ensures 'A' <= c <= 'Z' ==> r as int == c as int + 32
    ensures !('A' <= c <= 'Z') ==> r == c
    ensures !('A' <= r <= 'Z')
  {
    if 'A' <= c <= 'Z' then (c as int + 32) as char else c
  }

  /** ASCII `toLowerCase`: every character lowered in place. */
  function Lower(s: string): (r: string)
    ensures |r| == |s|
    ensures forall i :: 0 <= i < |s| ==> r[i] == LowerChar(s[i])
  {
    if s == [] then [] else [LowerChar(s[0])] + Lower(s[1..])
  }

  /** Lowering twice lowers nothing more. */
  lemma LowerIdempotent(s: string)
    ensures Lower(Lower(s)) == Lower(s)
  {
  }

  predicate StartsWith(s: string, prefix: string) {
    |prefix| <= |s| && s[..|prefix|] == prefix
  }

  /** `s.includes(sub)`. */
  predicate Contains(s: string, sub: string)
    decreases |s|
  {
    StartsWith(s, sub) || (|s| > 0 && Contains(s[1..], sub))
  }

  /** `includes` holds exactly when `sub` occurs at some offset of `s`. */
  lemma {:induction false} ContainsAt(s: string, sub: string, k: nat)
    requires k + |sub| <= |s| && s[k..k + |sub|] == sub
    ensures Contains(s, sub)
    decreases k
  {
    if k > 0 {
      assert s[1..][k - 1..k - 1 + |sub|] == sub;
      ContainsAt(s[1..], sub, k - 1);
    } else {
      assert s[..|sub|] == sub;
    }
  }

  /** Every string includes the empty string and itself. */
  lemma ContainsTrivial(s: string)
    ensures Contains(s, "") && Contains(s, s)
  {
    ContainsAt(s, "", 0);
    ContainsAt(s, s, 0);
  }

  /** `xs.slice(0, n)`. */
  function Take<T>(xs: seq<T>, n: nat): (r: seq<T>)
    ensures |r| == if |xs| < n then |xs| else n
    ensures r == xs[..|r|]
  {
    if |xs| < n then xs else xs[..n]
  }

  /** JavaScript truthiness of a `number | null`: null and 0 are falsy. */
  predicate IsTruthy(n: Option<int>) {
    n.Some? && n.value != 0
  }

  predicate IsDigit(c: char) {
    '0' <= c <= '9'
  }

  function DigitChar(d: nat): (c: char)
    requires d < 10
    ensures IsDigit(c) && c as int - '0' as int == d
  {
    ('0' as int + d) as char
  }

  /** Decimal digits of a natural number, as a template literal prints it. */
  function NatToString(n: nat): (r: string)
    ensures |r| > 0 && forall i :: 0 <= i < |r| ==> IsDigit(r[i])
    ensures r[0] == '0' ==> n == 0
  {
    if n < 10 then [DigitChar(n)] else NatToString(n / 10) + [DigitChar(n % 10)]
  }

  /** `${n}` for an integer number: a minus sign before the digits of its
      magnitude when it is negative. */
  function IntToString(n: int): (r: string)
    ensures |r| > 0
    ensures n < 0 <==> r[0] == '-'
  {
    if n < 0 then "-" + NatToString(-n) else NatToString(n)
  }

  /** The value of a string of decimal digits. */
  function DigitsValue(s: string): (n: nat)
    requires forall i :: 0 <= i < |s| ==> IsDigit(s[i])
  {
    if s == [] then 0
    else
      var d := s[|s| - 1] as int - '0' as int;
      assert IsDigit(s[|s| - 1]);
      DigitsValue(s[..|s| - 1]) * 10 + d
  }

  /** Reads back an integer printed by `IntToString`: an optional minus sign
      followed by at least one digit. */
  function ParseInt(s: string): (r: Option<int>)
    ensures r.Some? ==> |s| > 0
  {
    if |s| > 0 && s[0] == '-' then
      (if |s| > 1 && forall i :: 1 <= i < |s| ==> IsDigit(s[i]) then Some(0 - DigitsValue(s[1..]) as int) else None)
    else if |s| > 0 && forall i :: 0 <= i < |s| ==> IsDigit(s[i]) then Some(DigitsValue(s))
    else None
  }

  lemma {:induction false} DigitsRoundTrip(n: nat)
    ensures DigitsValue(NatToString(n)) == n
  {
    var r := NatToString(n);
    if n >= 10 {
      DigitsRoundTrip(n / 10);
      assert r[..|r| - 1] == NatToString(n / 10);
    }
  }

  /** Printing an integer and parsing it back gives the integer. */
  lemma IntRoundTrip(n: int)
    ensures ParseInt(IntToString(n)) == Some(n)
  {
    if n < 0 {
      var d := NatToString(-n);
      DigitsRoundTrip(-n);
      assert IntToString(n)[1..] == d;
    } else {
      DigitsRoundTrip(n);
    }
  }
}

=== FILE: types.dfy ===
/** The enumerations and records of src/types/index.ts that the pages branch on. */
module Types {

  datatype SessionStatus = Scheduled | InProgress | Completed | Cancelled
  datatype SessionType = OneOnOne | Group
  datatype Role = Teacher | Learner
  datatype SkillType = Teach | Learn
  datatype Proficiency = Beginner | Intermediate | Advanced | Expert

  /** A skill of the predefined catalogue. */
  datatype Skill = Skill(id: int, name: string, category: string)

  /** The wire spelling of a session status. */
  function StatusName(s: SessionStatus): string {
    match s
    case Scheduled => "SCHEDULED"
    case InProgress => "IN_PROGRESS"
    case Completed => "COMPLETED"
    case Cancelled => "CANCELLED"
  }

  /** The wire spelling of a proficiency level. */
  function ProficiencyName(p: Proficiency): string {
    match p
    case Beginner => "BEGINNER"
    case Intermediate => "INTERMEDIATE"
    case Advanced => "ADVANCED"
    case Expert => "EXPERT"
  }
}
